=== FILE: README.md ===
# RITS system migration, modelled in Dafny

The RITS system for Foundry VTT rewrites stored actors and scenes when its data
schema changes. `module/migration.js` computes one update payload per record,
and the host applies it. This project models those payload builders and the
world migration that dispatches them. The host's part is left to the host.

The character payload (`_migrateActor`) does four things:

- It renames attribute and skill keys through a fixed seven-entry table.
- It marks each old key for deletion with a `-=old` key.
- It refreshes labels from the system's reference schema.
- It coerces skill ratings and the healing clock to numbers with `parseInt`.

It also rewrites every active-effect change key with one `replaceAll` per
table entry. The scene payload links every token to its actor and clears the
token's overrides. The token-link payload links an actor's prototype token.
The world migration sends the character payload to characters, the token-link
payload to characters and crews, and the scene payload to every scene. An actor or
scene whose payload throws is logged and skipped, and the run goes on.

Modules, one per file:

- `JsValues` (`js_values.dfy`): the JavaScript values a stored field can hold,
  plus `Option` and `Result`.
- `NumberParsing` (`number_parsing.dfy`): `parseInt` as section 19.2.5 of
  ECMA-262 defines it, and the coercion of a skill rating or healing clock.
- `StringReplace` (`string_replace.dfy`): `String.prototype.replaceAll` with a
  plain string pattern, as in section 22.1.3.20 of ECMA-262.
- `RenameTable` (`rename_table.dfy`): the rename table, the deletion-key
  convention, and the rewrite of change keys.
- `KeyRenaming` (`key_renaming.dfy`): one generic loop that renames the keys of
  a stored object into a payload object. It serves both the attribute loop and
  the skill loop.
- `ActorMigration` (`actor_migration.dfy`): the character payload.
- `ActorProperties` (`actor_properties.dfy`): what that payload says about the
  stored actor. This covers renamed and kept entries, when the migration
  throws, and what a second run does.
- `MigrationExamples` (`migration_examples.dfy`): one worked character, an
  `insight` attribute with a `tinker` skill, migrated end to end.
- `TokenMigration` (`token_migration.dfy`): the scene and token-link payloads.
- `WorldMigration` (`world_migration.dfy`): the dispatch over actors and
  scenes as a list of steps, and the loop that builds that list.

How JavaScript data is represented:

- **Stored objects.** An object whose key order matters, such as the stored
  attributes or an attribute's skills, is a sequence of `(key, value)` pairs in
  `Object.keys` order.
- **Payload objects.** A payload object is a finite map built by a left fold,
  so a later write to the same key replaces an earlier one, as in the source.
- **Deletion markers.** They are kept literally, as keys `"-=" + old` whose
  value is a `Delete…` variant.
- **Thrown errors.** A `TypeError` is an `Err` of `MigrationError`. In the
  character payload it comes from reading a missing schema label, from
  `Object.keys` of a missing skills field, from reading the rating of a `null`
  skill, or from calling `replaceAll` on a change key that is not a string. It
  aborts that actor's whole payload. In the scene payload it comes from a
  missing token collection or a `null` token, and aborts that scene's payload.
- **The reference schema.** `game.system.model.Actor.character.attributes` is a
  parameter.

An attribute that is not renamed gets only `{skills}` in the payload. Its own
label is not refreshed (module/migration.js:161-163); only the labels of its
skills are.

## Model

| member | source | states |
|---|---|---|
| NumberParsing.Coerce | module/migration.js:140-143 | A number, NaN included, is kept. Any other value becomes what `parseInt` reads from its string form: the integer read, or NaN when there is none. |
| NumberParsing.ParseIntReadsDecimal | module/migration.js:142 | `parseInt` skips leading white space and an optional `+` or `-`, reads the whole run of decimal digits that follows, leading zeros included, and ignores the non-digit text after it. The exception is a run that is a lone `0` directly followed by `x` or `X`, which reads as hexadecimal. |
| NumberParsing.ParseIntReadsHex | module/migration.js:142 | After white space and a sign, a `0x` or `0X` prefix makes `parseInt` read hexadecimal digits. With no hexadecimal digit after the prefix the result is NaN. |
| NumberParsing.ParseIntOfIntToString | module/migration.js:142 | `parseInt` of the decimal spelling of any integer gives that integer back. |
| NumberParsing.ParseIntWithoutDigits | module/migration.js:142 | A string with no decimal digit at all parses to NaN. |
| NumberParsing.CoerceIdempotent | module/migration.js:140-143 | Coercing a coerced rating changes nothing, so an unparseable rating stays NaN on every later run. |
| NumberParsing.CoerceDecimalString | module/migration.js:140-143 | A rating stored as the decimal string of an integer becomes that integer. |
| NumberParsing.CoerceLeadingDecimal | module/migration.js:140-143 | A string rating that starts with a signed decimal number, such as `"+05"` or `" 3 dice"`, becomes that number. The exception is a lone `0` directly followed by `x` or `X`, which reads as hexadecimal. |
| NumberParsing.CoerceWithoutDigits | module/migration.js:140-143 | `undefined`, `null`, a boolean or a string without digits becomes NaN. |
| NumberParsing.CoerceSeven | module/migration.js:140-143 | The rating `"7"` becomes the number 7. |
| NumberParsing.CoerceLetters | module/migration.js:140-143 | The rating `"abc"` becomes NaN. |
| StringReplace.ReplaceAllAbsent | module/migration.js:173 | `replaceAll` with a pattern that does not occur returns the string unchanged. |
| StringReplace.ReplaceAllLength | module/migration.js:173 | Each replaced occurrence changes the length by the difference between the replacement and the pattern. |
| StringReplace.ReplaceAllUnchangedIff | module/migration.js:173 | With a replacement of another length, `replaceAll` leaves the string unchanged exactly when the pattern does not occur in it. |
| StringReplace.AbsentCharacter | module/migration.js:173 | A pattern that holds a character the string lacks does not occur in it. |
| StringReplace.ReplaceAllWhole | module/migration.js:173 | A string that is exactly the pattern becomes the replacement. |
| StringReplace.ReplaceAllSplits | module/migration.js:173 | When a character the pattern lacks separates two parts of a string, `replaceAll` rewrites each part on its own and keeps the separator. |
| RenameTable.LookupFinds | module/migration.js:88-104 | `skillsMap.get` finds a key exactly when the table has an entry for it, and returns that entry's new name. |
| RenameTable.RenameTargets | module/migration.js:88-96 | A new name differs from the old name, is not a deletion key, and is not renamed again. |
| RenameTable.DeletionKey | module/migration.js:120 | The marker `-=old` is a deletion key whose remainder is the old key. |
| RenameTable.TargetIsNotDeletionKey | module/migration.js:117-121 | For a stored key, the key its entry is written under is never a deletion key, so it never collides with a marker. |
| RenameTable.RewriteKeyUnchanged | module/migration.js:171-174 | A change key that mentions none of the seven old names is left unchanged. |
| RenameTable.RewriteKeyDot | module/migration.js:171-174 | The rewrite of a dotted change key is the rewrite of each side of the dot, joined by the dot. No old name contains a dot, so no replacement spans one. |
| RenameTable.RewriteOldName | module/migration.js:171-174 | Each of the seven old names, as a whole change-key segment, is rewritten to its new name. |
| RenameTable.RewriteSegment | module/migration.js:171-174 | A segment that is an old name, or that mentions none, is rewritten to its target name. |
| RenameTable.RewritePath | module/migration.js:171-174 | A dotted change key whose segments are old names or mention none is rewritten segment by segment to the target names. |
| RenameTable.RewriteSkillValueKey | module/migration.js:171-174 | The change key `system.attributes.A.skills.S.value` is rewritten to the same path with A and S replaced by their target names. |
| KeyRenaming.RenameKeysOk | module/migration.js:103-164 | A renaming loop completes exactly when the payload entry of every stored entry can be built. |
| KeyRenaming.RenameKeysFirstError | module/migration.js:103-164 | When the loop throws, it throws the error of the first stored entry that fails. |
| KeyRenaming.RenameKeysKeys | module/migration.js:145-155 | The payload keys are exactly the target keys of the stored entries, plus the deletion keys of the renamed ones. |
| KeyRenaming.RenameKeysLast | module/migration.js:145-155 | Under each target key, the payload holds the entry built from the last stored entry written there. |
| KeyRenaming.RenameKeysDeletion | module/migration.js:149 | A renamed stored key is marked for deletion. |
| KeyRenaming.RenameKeysNoDeletion | module/migration.js:151-155 | A key the table does not rename gets no deletion marker. |
| KeyRenaming.RenameKeysSingle | module/migration.js:145-155 | A one-entry object gives the payload of that entry written under its target, with a marker if renamed, or that entry's error. |
| KeyRenaming.RenameKeysValues | module/migration.js:145-155 | Every payload value is either a deletion marker under a deletion key, or the entry built from a stored entry whose target is that key. |
| KeyRenaming.RenameKeysFinal | module/migration.js:145-155 | Apart from deletion keys, every payload key is a name the table does not rename. |
| ActorMigration.MigrateChange | module/migration.js:171-175 | A change is migrated exactly when its key is a string; otherwise `replaceAll` throws. A migrated change keeps its mode and value, and a key that mentions no old name stays as it is. |
| ActorMigration.MigrateChangeRetargets | module/migration.js:171-175 | A change whose key is a dotted path of old names and unmentioned segments gets the path of their target names, with the same mode and value. |
| ActorMigration.MigrateChanges | module/migration.js:170-176 | An effect's changes are migrated exactly when every key is a string. They are migrated one by one, in order, each as the change at the same place. |
| ActorMigration.MigrateChangesFirstError | module/migration.js:170-176 | The error is that of the first change whose key is not a string. |
| ActorMigration.MigrateEffects | module/migration.js:166-178 | The effects are migrated exactly when every change key of every effect is a string. There is then one payload effect per stored effect, in the same order, with the same `_id` and the changes of the stored effect at the same place. |
| ActorMigration.MigrateEffectsFirstError | module/migration.js:166-178 | The error is that of the first effect whose changes throw. |
| ActorMigration.MigrateHealingClock | module/migration.js:180-183 | The healing clock is in the payload exactly when the stored value is not a number, and then it is the coerced value. |
| ActorMigration.MigrateActor | module/migration.js:86-186 | The payload is built exactly when the attributes loop completes and every change key is a string. An attribute error wins, because that loop runs first; otherwise the error is that of the effects. A built payload holds the attributes payload, the effects payload, as long as the stored list, and the healing clock exactly when the stored clock is not a number. |
| ActorProperties.MigrateAttributeOkIff | module/migration.js:117-155 | One attribute throws exactly when its skills field is missing, one of its skills is `null`, or the schema lacks the label of its new name or of one of its skills. |
| ActorProperties.MigrateActorOkIff | module/migration.js:103-178 | A character's payload throws exactly when some stored attribute is not covered by the schema, or some effect change has a key that is not a string. |
| ActorProperties.RenamedAttribute | module/migration.js:117-121 | A renamed attribute is moved whole under its new name. It takes the schema's label for that name and the rebuilt skills, and the old key is mapped to the deletion marker. |
| ActorProperties.KeptAttribute | module/migration.js:157-163 | An attribute the table does not rename stays under its key as exactly `{skills}`, with no deletion marker. |
| ActorProperties.RenamedSkill | module/migration.js:145-150 | A renamed skill appears under its new name with the coerced rating and the schema's label. Its old key is mapped to the deletion marker. |
| ActorProperties.KeptSkill | module/migration.js:151-155 | A skill the table does not rename stays under its key with the coerced rating and a refreshed label, and gets no deletion marker. |
| ActorProperties.PayloadAttributeKeys | module/migration.js:103-164 | The payload's attribute keys are the stored keys' target names, plus the deletion keys of the renamed ones. |
| ActorProperties.MigratedAttributeSkills | module/migration.js:157-163 | An attribute entry is never a deletion marker, and its skills are the skills object built for it. |
| ActorProperties.MigratedKeysFinal | module/migration.js:103-164 | Apart from deletion keys, every attribute key and skill key in the payload is a final name. |
| ActorProperties.UnrenamedKeys | module/migration.js:145-163 | A stored object none of whose keys is renamed is rebuilt under exactly its own keys, with no deletion key. |
| ActorProperties.AlreadyMigratedActor | module/migration.js:103-164 | For an actor whose keys are all final, the payload keeps exactly the stored attribute keys, writes no deletion marker at either level, and only refreshes each attribute's skills. |
| MigrationExamples.InsightTinkerExample | module/migration.js:86-186 | An `insight` attribute with a `tinker` skill rated `"5"` becomes `intuition` holding `engineer` rated 5, with `-=insight` and `-=tinker` marked for deletion. |
| TokenMigration.LinkToken | module/migration.js:68-70 | A payload token is linked with empty overrides and keeps every other field. |
| TokenMigration.LinkTokenFixpoint | module/migration.js:68-70 | A token's payload copy equals the token exactly when the token is already linked with no overrides. |
| TokenMigration.LinkTokens | module/migration.js:67-71 | The tokens are linked exactly when none is `null`. The list then keeps its length and order, and every token is linked with empty overrides and keeps its other fields. Otherwise the error names the first `null` token. |
| TokenMigration.MigrateScene | module/migration.js:64-73 | A scene without a token collection throws, and so does one holding a `null` token. Otherwise the payload has as many tokens as the scene, each linked, with `actorData` empty and its other fields kept. |
| TokenMigration.LinkTokensOfLinked | module/migration.js:67-71 | A stored list of tokens that are all linked is copied unchanged. |
| TokenMigration.SceneUnchangedIff | module/migration.js:64-73 | The scene payload exists and equals the stored token list exactly when every stored token is present and already linked with no overrides. |
| TokenMigration.SceneMigrationIdempotent | module/migration.js:64-73 | When a scene's payload can be built, migrating a scene that already holds the payload's tokens gives the same payload. |
| TokenMigration.MigrateTokenLink | module/migration.js:195-201 | The token-link payload has exactly one key, `prototypeToken.actorLink`, set to true. |
| TokenMigration.TokenLinkIndependent | module/migration.js:195-201 | The token-link payload reads nothing of the actor, so every actor gets the same one. |
| WorldMigration.ActorStepsCases | module/migration.js:9-35 | A character gets its payload or its logged error, followed by the token link. A crew gets only the token link. Any other actor gets nothing. No payload is empty, so none is skipped. |
| WorldMigration.ScenesStepsAre | module/migration.js:38-48 | Every scene gets exactly one step, in collection order: its payload submitted, or its error logged. |
| WorldMigration.SceneStepIs | module/migration.js:38-48 | A single scene gives one step: its payload submitted when it can be built, its error logged otherwise. |
| WorldMigration.SceneFailureIsolation | module/migration.js:38-48 | Replacing one scene, with one whose payload throws or not, changes only that scene's step. |
| WorldMigration.ActorsStepsConcat | module/migration.js:9-35 | Actors contribute their steps independently and in collection order. |
| WorldMigration.FailureIsolation | module/migration.js:9-35 | Replacing one actor, with one whose payload throws or not, changes only that actor's steps and leaves every other actor's steps alone. |
| WorldMigration.FlatMapConcat | module/migration.js:9-35 | The loop over two collections joined takes the steps of the first, then those of the second. |
| WorldMigration.FlatMapSplit | module/migration.js:9-35 | The steps of a loop are the earlier elements' steps, then the element's own, then the later elements'. |
| WorldMigration.FlatMapMembers | module/migration.js:9-48 | A step is taken by a loop exactly when some element contributes it. |
| WorldMigration.ActorsStepsCount | module/migration.js:9-35 | The actor loop takes two steps per character and one per crew. |
| WorldMigration.StepCount | module/migration.js:9-48 | A run takes two steps per character, one per crew and one per scene. |
| WorldMigration.ActorsStepsMembers | module/migration.js:9-35 | A step belongs to the actor loop exactly when some actor contributes it. |
| WorldMigration.AttributeUpdatesOnlyForCharacters | module/migration.js:10-20 | Every attribute update, and every logged failure, belongs to a character and carries exactly that character's payload or error. |
| WorldMigration.EmptyWorld | module/migration.js:5-53 | A world with no actors and no scenes submits nothing and still records the version. |
| WorldMigration.MigrateActors | module/migration.js:9-35 | The actor loop produces the dispatch plan for the actors. |
| WorldMigration.MigrateScenes | module/migration.js:38-48 | The scene loop produces one step per scene, in order: its payload submitted, or its error logged. |
| WorldMigration.MigrateWorld | module/migration.js:5-53 | A whole run visits every actor and then every scene whatever failed. Its step count is two per character, one per crew and one per scene, and it records the system version at the end. |

## Left out

- Host calls are left out: `a.update`, `s.update`, `console.log`, `console.error`, `ui.notifications.info` and `game.settings.set`. A run is a list of submitted payloads and logged failures, plus the version it records.
- A failed host `update` is left out. Only a payload whose computation throws becomes a failure step, because the host's persistence layer is not part of this model.
- `module/settings.js` is not part of this model. It only registers a setting with the host, including the `[0]` default of a string setting.
- Mutation through aliasing is left out. The source writes labels and ratings into sub-objects of the actor's stored data and mutates the cloned tokens. The model uses value semantics and says nothing about the stored data after the call.
- Numbers are integers plus NaN. Fractions, infinities and the sign of zero are not represented, and that is a simplification of JavaScript:
- `NumberParsing.ParseInt` gives 0 for `"-0"`, where JavaScript gives -0. The two compare equal, but they are different numbers.
- `NumberParsing.ParseInt` gives the exact integer for any digit string. JavaScript rounds an integer above 2^53 to a double, and a run of more than about 309 decimal digits gives Infinity.
- `NumberParsing.ParseIntOfIntToString` is exact for every integer here. In JavaScript it holds only for safe integers, of magnitude at most 2^53 - 1.
- `NumberParsing.IntToString` always spells an integer in plain decimal. JavaScript uses exponent form from 1e21 on, and `parseInt` then stops at the `e`.
- `NumberParsing.Coerce` does not model `parseInt` of an object or array rating, because stored values are modelled as primitives only.
- Object and array field values other than attributes, skills, effects and tokens are opaque `fields` maps of primitives. Their contents are copied and never inspected.
- `Object.keys` puts integer-like keys first. The model enumerates stored keys in the order given.
- A schema attribute is assumed to have a `skills` object, and every schema entry a label. A schema attribute without `skills` would throw in the source.
- A stored attribute that is `null` is not represented, so the throw from reading its skills is not modelled. A `null` skill, a `null` token and a missing token collection are modelled.
- An actor without an `effects` list, a stored effect whose `changes` field is missing, and a change that is `null` are not represented. The host always provides both lists. A change key that is present but not a string is modelled.
- `KeyRenaming.StoredKeys`: stored attribute and skill keys are assumed not to begin with `-=`, because the host reads such a key in an update as a deletion, so it never reaches storage. The source accepts such a key: stored attributes `insight` and `-=insight` give a payload whose `-=insight` holds `{skills}`, overwriting the marker. The model computes that too, but the contracts of `KeyRenaming.RenameKeysLast`, `KeyRenaming.RenameKeysDeletion`, `KeyRenaming.RenameKeysNoDeletion`, `KeyRenaming.RenameKeysValues`, `ActorProperties.RenamedAttribute`, `ActorProperties.KeptAttribute`, `ActorProperties.RenamedSkill`, `ActorProperties.KeptSkill`, `ActorProperties.MigratedKeysFinal`, `ActorProperties.UnrenamedKeys` and `ActorProperties.AlreadyMigratedActor` are stated only for stored keys without that prefix.
- `isObjectEmpty` is modelled only through the top-level keys of each payload. None of the three payloads is ever empty, so the guard never skips one.
- `RenameTable.RewritePath`: promises the rewrite only for segments that are an old name or mention none. A segment holding an old name inside other text, such as `proweshunt`, goes through the seven replacements in table order. A replacement can re-create an old name whose own replacement has already run, and that name then survives. `hunt` becomes `stalk`, so `proweshunt` becomes `prowesstalk`, which spells the earlier old name `prowess`. `resolveesolve` becomes `willpoweresolve`, which spells `resolve` again. No segment-wise result is promised for such a segment.
- `ActorMigration.MigrateActor`: its own contract ties the payload to the attributes, effects and healing-clock payloads. What each attribute and skill entry holds is stated by the `ActorProperties` lemmas instead.

=== FILE: actor_migration.dfy ===
/**
 The payload the migration builds for one character actor from its stored
 source: attributes and skills renamed through the rename table with labels
 refreshed from the system's reference schema and skill ratings coerced to
 numbers, every active-effect change key rewritten, and the healing clock
 coerced when it is not a number.
 */
module ActorMigration {
  import opened JsValues
  import opened NumberParsing
  import opened RenameTable
  import opened KeyRenaming

  /** A skill of a stored attribute: its label, its rating, and its other
      fields; `NullSkill` is an entry that is `null` or `undefined`. */
  datatype Skill = Skill(displayLabel: string, value: Value, fields: map<string, Value>) | NullSkill

  /** An attribute of a stored character; `skills` is `None` when the field is missing. */
  datatype Attribute = Attribute(displayLabel: string, skills: Option<Entries<Skill>>, fields: map<string, Value>)

  /** One change of an active effect; `fields` holds the rest, such as its
      priority. The key is whatever value the stored change holds. */
  datatype Change = Change(key: Value, mode: Value, value: Value, fields: map<string, Value>)

  datatype Effect = Effect(id: string, changes: seq<Change>)

  /** The stored source of an actor; `attributes` is `None` when the field is missing. */
  datatype Actor = Actor(id: string, kind: string, attributes: Option<Entries<Attribute>>, healingClock: Value, effects: seq<Effect>)

  /** An attribute of the system's reference schema for characters: its label
      and the labels of its skills. */
  datatype SchemaAttribute = SchemaAttribute(displayLabel: string, skills: map<string, string>)

  type Schema = map<string, SchemaAttribute>

  /** A skill entry of the payload; `DeleteSkill` is the `null` under `-=name`. */
  datatype SkillPatch = SetSkill(displayLabel: string, value: Value, fields: map<string, Value>) | DeleteSkill

  /** An attribute entry of the payload. A renamed attribute is the whole
      stored attribute moved under its new name; any other attribute only
      carries its rebuilt skills; `DeleteAttribute` is the `null` under `-=name`. */
  datatype AttributePatch =
    | Moved(displayLabel: string, skills: map<string, SkillPatch>, fields: map<string, Value>)
    | SkillsOnly(skills: map<string, SkillPatch>)
    | DeleteAttribute

  datatype ChangePatch = ChangePatch(key: string, mode: Value, value: Value)

  datatype EffectPatch = EffectPatch(id: string, changes: seq<ChangePatch>)

  /** The update payload: `system.attributes`, the optional
      `system.healing-clock`, and the replacement `effects` list. */
  datatype ActorPatch = ActorPatch(attributes: map<string, AttributePatch>, healingClock: Option<Value>, effects: seq<EffectPatch>)

  /** What computing a payload can throw. For an actor: a property read on an
      undefined schema entry, `Object.keys` of a missing skills field, the
      rating of a `null` skill, or `replaceAll` called on a change key that is
      not a string. For a scene: `map` over a missing token list, or a write
      to a `null` token. */
  datatype MigrationError =
    | MissingSchemaAttribute(attribute: string)
    | MissingSchemaSkill(attribute: string, skill: string)
    | MissingSkills(attribute: string)
    | NullSkillRead(skill: string)
    | ChangeKeyNotString(key: Value)
    | MissingTokens
    | NullToken(index: nat)

  /** `attributes[attribute].skills[skill].label` of the schema. */
  function SchemaSkillLabel(schema: Schema, attribute: string, skill: string): Result<string, MigrationError> {
    if attribute !in schema then Err(MissingSchemaAttribute(attribute))
    else if skill !in schema[attribute].skills then Err(MissingSchemaSkill(attribute, skill))
    else Ok(schema[attribute].skills[skill])
  }

  /** The payload entry of one skill, whose labels are looked up under the
      schema attribute `attribute`: the stored skill with its label refreshed
      under its target name and its rating coerced. */
  function MigrateSkill(attribute: string, name: string, skill: Skill, schema: Schema): Result<SkillPatch, MigrationError> {
    if skill.NullSkill? then Err(NullSkillRead(name))
    else
    var value := Coerce(skill.value);
    var skillLabel :- SchemaSkillLabel(schema, attribute, Target(name));
    Ok(SetSkill(skillLabel, value, skill.fields))
  }

  function SkillBuilder(attribute: string, schema: Schema): (string, Skill) -> Result<SkillPatch, MigrationError> {
    (name: string, skill: Skill) => MigrateSkill(attribute, name, skill, schema)
  }

  /** The rebuilt skills object of the stored attribute `name`. */
  function MigrateSkills(name: string, attribute: Attribute, schema: Schema): Result<map<string, SkillPatch>, MigrationError> {
    match attribute.skills
    case None => Err(MissingSkills(name))
    case Some(skills) => RenameKeys(skills, SkillBuilder(Target(name), schema), DeleteSkill)
  }

  /** The payload entry of one stored attribute. */
  function MigrateAttribute(name: string, attribute: Attribute, schema: Schema): Result<AttributePatch, MigrationError> {
    match Rename(name)
    case Some(newName) =>
      if newName !in schema then Err(MissingSchemaAttribute(newName))
      else
        var skills :- MigrateSkills(name, attribute, schema);
        Ok(Moved(schema[newName].displayLabel, skills, attribute.fields))
    case None =>
      var skills :- MigrateSkills(name, attribute, schema);
      Ok(SkillsOnly(skills))
  }

  function AttributeBuilder(schema: Schema): (string, Attribute) -> Result<AttributePatch, MigrationError> {
    (name: string, attribute: Attribute) => MigrateAttribute(name, attribute, schema)
  }

  /** The `system.attributes` part of the payload; a missing attributes field
      counts as an empty object. */
  function MigrateAttributes(attributes: Option<Entries<Attribute>>, schema: Schema): Result<map<string, AttributePatch>, MigrationError> {
    RenameKeys(attributes.GetOr([]), AttributeBuilder(schema), DeleteAttribute)
  }

  /** The payload entry of one change: its key rewritten, its mode and value
      copied, and nothing else. `replaceAll` throws on a key that is not a
      string. */
  function MigrateChange(change: Change): (r: Result<ChangePatch, MigrationError>)
    ensures r.Ok? <==> change.key.Str?
    ensures r.Err? ==> r.error == ChangeKeyNotString(change.key)
    ensures r.Ok? ==> r.value.mode == change.mode && r.value.value == change.value
    ensures r.Ok? && !MentionsOldName(change.key.s) ==> r.value.key == change.key.s
  {
    match change.key
    case Str(key) =>
      assert !MentionsOldName(key) ==> RewriteKey(key) == key by {
        if !MentionsOldName(key) { RewriteKeyUnchanged(key); }
      }
      Ok(ChangePatch(RewriteKey(key), change.mode, change.value))
    case _ => Err(ChangeKeyNotString(change.key))
  }

  /** Every change key of every effect is a string. */
  predicate ChangeKeysAreStrings(effects: seq<Effect>) {
    forall i, j :: 0 <= i < |effects| && 0 <= j < |effects[i].changes| ==> effects[i].changes[j].key.Str?
  }

  /** The changes of one effect, migrated in order; the first change whose
      key is not a string throws. */
  function MigrateChanges(changes: seq<Change>): (r: Result<seq<ChangePatch>, MigrationError>)
    ensures r.Ok? <==> forall j :: 0 <= j < |changes| ==> changes[j].key.Str?
    ensures r.Ok? ==> |r.value| == |changes| && forall j :: 0 <= j < |r.value| ==> Ok(r.value[j]) == MigrateChange(changes[j])
  {
    if changes == [] then Ok([])
    else
      var first :- MigrateChange(changes[0]);
      var rest :- MigrateChanges(changes[1..]);
      Ok([first] + rest)
  }

  /** The `effects` part of the payload: one entry per stored effect, in
      order, or the error of the first change key that is not a string. */
  function MigrateEffects(effects: seq<Effect>): (r: Result<seq<EffectPatch>, MigrationError>)
    ensures r.Ok? <==> ChangeKeysAreStrings(effects)
    ensures r.Ok? ==> |r.value| == |effects|
    ensures r.Ok? ==> forall i :: 0 <= i < |r.value| ==>
              r.value[i].id == effects[i].id && Ok(r.value[i].changes) == MigrateChanges(effects[i].changes)
  {
    if effects == [] then Ok([])
    else
      var changes :- MigrateChanges(effects[0].changes);
      var rest :- MigrateEffects(effects[1..]);
      Ok([EffectPatch(effects[0].id, changes)] + rest)
  }

  /** The `system.healing-clock` part of the payload: present only when the
      stored value is not a number, and then `parseInt` of it. */
  function MigrateHealingClock(clock: Value): (r: Option<Value>)
    ensures r.Some? <==> !IsNumber(clock)
    ensures r.Some? ==> r.value == Coerce(clock)
  {
    if IsNumber(clock) then None else Some(ParseIntOf(clock))
  }

  /** The changes throw the error of the first change whose key is not a
      string. */
  lemma {:induction false} MigrateChangesFirstError(changes: seq<Change>, j: int)
    requires 0 <= j < |changes| && !changes[j].key.Str?
    requires forall k :: 0 <= k < j ==> changes[k].key.Str?
    ensures MigrateChanges(changes) == Err(ChangeKeyNotString(changes[j].key))
  {
    if j > 0 {
      var rest := changes[1..];
      assert rest[j - 1] == changes[j];
      forall k | 0 <= k < j - 1 ensures rest[k].key.Str? {
        assert rest[k] == changes[k + 1];
      }
      MigrateChangesFirstError(rest, j - 1);
      assert changes[0].key.Str?;
    }
  }

  /** The effects throw the error of the first effect whose changes throw. */
  lemma {:induction false} MigrateEffectsFirstError(effects: seq<Effect>, i: int)
    requires 0 <= i < |effects| && MigrateChanges(effects[i].changes).Err?
    requires forall k :: 0 <= k < i ==> MigrateChanges(effects[k].changes).Ok?
    ensures MigrateEffects(effects) == Err(MigrateChanges(effects[i].changes).error)
  {
    if i > 0 {
      var rest := effects[1..];
      assert rest[i - 1] == effects[i];
      forall k | 0 <= k < i - 1 ensures MigrateChanges(rest[k].changes).Ok? {
        assert rest[k] == effects[k + 1];
      }
      MigrateEffectsFirstError(rest, i - 1);
      assert MigrateChanges(effects[0].changes).Ok?;
    }
  }

  /** The whole payload for one character actor, or what its migration
      throws: the attributes are migrated before the effects, so an attribute
      error wins over a change-key error. */
  function MigrateActor(actor: Actor, schema: Schema): (r: Result<ActorPatch, MigrationError>)
    ensures r.Ok? <==> MigrateAttributes(actor.attributes, schema).Ok? && ChangeKeysAreStrings(actor.effects)
    ensures MigrateAttributes(actor.attributes, schema).Err? ==> r == Err(MigrateAttributes(actor.attributes, schema).error)
    ensures MigrateAttributes(actor.attributes, schema).Ok? && r.Err? ==> r == Err(MigrateEffects(actor.effects).error)
    ensures r.Ok? ==> r.value.attributes == MigrateAttributes(actor.attributes, schema).value
    ensures r.Ok? ==> Ok(r.value.effects) == MigrateEffects(actor.effects) && |r.value.effects| == |actor.effects|
    ensures r.Ok? ==> r.value.healingClock == MigrateHealingClock(actor.healingClock)
    ensures r.Ok? ==> (r.value.healingClock.Some? <==> !IsNumber(actor.healingClock))
  {
    var attributes :- MigrateAttributes(actor.attributes, schema);
    var effects :- MigrateEffects(actor.effects);
    Ok(ActorPatch(attributes, MigrateHealingClock(actor.healingClock), effects))
  }

  /** A change key naming an attribute or skill path, each segment of which is
      an old identifier or mentions none, is retargeted segment by segment. */
  lemma MigrateChangeRetargets(change: Change, segs: seq<string>)
    requires change.key == Str(JoinPath(segs))
    requires forall i :: 0 <= i < |segs| ==> Retargetable(segs[i])
    ensures MigrateChange(change) == Ok(ChangePatch(JoinPath(Targets(segs)), change.mode, change.value))
  {
    RewritePath(segs);
  }
}

=== FILE: actor_properties.dfy ===
/**
 What the payload of one character actor says about the stored actor:
 where each attribute and skill ends up, which keys are marked for deletion,
 when the migration throws, and what it does to an actor already migrated.
 */
module ActorProperties {
  import opened JsValues
  import opened NumberParsing
  import opened RenameTable
  import opened KeyRenaming
  import opened ActorMigration

  /** The stored attributes as the migration enumerates them. */
  function AttributesOf(actor: Actor): Entries<Attribute> {
    actor.attributes.GetOr([])
  }

  /** No stored attribute or skill key carries the deletion prefix. */
  predicate StoredActor(actor: Actor) {
    && StoredKeys(AttributesOf(actor))
    && forall i :: 0 <= i < |AttributesOf(actor)| && AttributesOf(actor)[i].1.skills.Some? ==>
         StoredKeys(AttributesOf(actor)[i].1.skills.value)
  }

  /** The attribute has a skills field and no `null` skill, and the schema has
      every label the migration of attribute `name` reads: the label of a
      renamed attribute, and the label of every skill under the attribute's
      target name. */
  predicate SchemaCovers(schema: Schema, name: string, attribute: Attribute) {
    var t := Target(name);
    && attribute.skills.Some?
    && (Rename(name).Some? ==> t in schema)
    && forall j :: 0 <= j < |attribute.skills.value| ==>
         && attribute.skills.value[j].1.Skill?
         && t in schema && Target(attribute.skills.value[j].0) in schema[t].skills
  }

  /** The migration of one attribute throws exactly when the schema lacks a
      label it reads, the attribute has no skills field, or one of its skills
      is `null`. */
  lemma MigrateAttributeOkIff(name: string, attribute: Attribute, schema: Schema)
    ensures MigrateAttribute(name, attribute, schema).Ok? <==> SchemaCovers(schema, name, attribute)
  {
    var t := Target(name);
    if attribute.skills.Some? {
      var skills := attribute.skills.value;
      RenameKeysOk(skills, SkillBuilder(t, schema), DeleteSkill);
      assert MigrateSkills(name, attribute, schema).Ok? <==>
             forall j :: 0 <= j < |skills| ==>
               skills[j].1.Skill? && t in schema && Target(skills[j].0) in schema[t].skills;
    }
  }

  /** The migration of an actor throws exactly when some stored attribute is
      not covered by the schema or some change key is not a string; one bad
      attribute or change spoils the whole payload. */
  lemma MigrateActorOkIff(actor: Actor, schema: Schema)
    ensures MigrateActor(actor, schema).Ok? <==>
            && (forall i :: 0 <= i < |AttributesOf(actor)| ==>
                  SchemaCovers(schema, AttributesOf(actor)[i].0, AttributesOf(actor)[i].1))
            && ChangeKeysAreStrings(actor.effects)
  {
    var attributes := AttributesOf(actor);
    RenameKeysOk(attributes, AttributeBuilder(schema), DeleteAttribute);
    forall i | 0 <= i < |attributes| {
      MigrateAttributeOkIff(attributes[i].0, attributes[i].1, schema);
    }
  }

  /** A renamed attribute is moved whole under its new name, with the schema's
      label for the new name, and its old key is marked for deletion. */
  lemma RenamedAttribute(actor: Actor, schema: Schema, i: int)
    requires MigrateActor(actor, schema).Ok?
    requires StoredKeys(AttributesOf(actor))
    requires 0 <= i < |AttributesOf(actor)| && LastWithTarget(AttributesOf(actor), i)
    requires Rename(AttributesOf(actor)[i].0).Some?
    ensures var (name, attribute) := AttributesOf(actor)[i];
            var newName := Rename(name).value;
            var payload := MigrateActor(actor, schema).value.attributes;
            && newName in schema && newName in payload
            && MigrateSkills(name, attribute, schema).Ok?
            && payload[newName] == Moved(schema[newName].displayLabel, MigrateSkills(name, attribute, schema).value, attribute.fields)
            && DeletionKey(name) in payload && payload[DeletionKey(name)] == DeleteAttribute
  {
    var attributes := AttributesOf(actor);
    RenameKeysLast(attributes, AttributeBuilder(schema), DeleteAttribute, i);
    RenameKeysDeletion(attributes, AttributeBuilder(schema), DeleteAttribute, i);
  }

  /** An attribute that is not renamed keeps its key, carries only its rebuilt
      skills, and gets no deletion marker. */
  lemma KeptAttribute(actor: Actor, schema: Schema, i: int)
    requires MigrateActor(actor, schema).Ok?
    requires StoredKeys(AttributesOf(actor))
    requires 0 <= i < |AttributesOf(actor)| && LastWithTarget(AttributesOf(actor), i)
    requires Rename(AttributesOf(actor)[i].0).None?
    ensures var (name, attribute) := AttributesOf(actor)[i];
            var payload := MigrateActor(actor, schema).value.attributes;
            && name in payload
            && MigrateSkills(name, attribute, schema).Ok?
            && payload[name] == SkillsOnly(MigrateSkills(name, attribute, schema).value)
            && DeletionKey(name) !in payload
  {
    var attributes := AttributesOf(actor);
    RenameKeysLast(attributes, AttributeBuilder(schema), DeleteAttribute, i);
    RenameKeysNoDeletion(attributes, AttributeBuilder(schema), DeleteAttribute, attributes[i].0);
  }

  /** A renamed skill appears under its new name with the schema's label and
      the coerced rating, and its old key is marked for deletion. */
  lemma RenamedSkill(name: string, attribute: Attribute, schema: Schema, j: int)
    requires MigrateSkills(name, attribute, schema).Ok?
    requires attribute.skills.Some? && StoredKeys(attribute.skills.value)
    requires 0 <= j < |attribute.skills.value| && LastWithTarget(attribute.skills.value, j)
    requires Rename(attribute.skills.value[j].0).Some?
    ensures var (skillName, skill) := attribute.skills.value[j];
            var newName := Rename(skillName).value;
            var t := Target(name);
            var skills := MigrateSkills(name, attribute, schema).value;
            && skill.Skill?
            && t in schema && newName in schema[t].skills && newName in skills
            && skills[newName] == SetSkill(schema[t].skills[newName], Coerce(skill.value), skill.fields)
            && DeletionKey(skillName) in skills && skills[DeletionKey(skillName)] == DeleteSkill
  {
    var entries := attribute.skills.value;
    RenameKeysLast(entries, SkillBuilder(Target(name), schema), DeleteSkill, j);
    RenameKeysDeletion(entries, SkillBuilder(Target(name), schema), DeleteSkill, j);
  }

  /** A skill that is not renamed stays under its key with a refreshed label
      and the coerced rating, and gets no deletion marker. */
  lemma KeptSkill(name: string, attribute: Attribute, schema: Schema, j: int)
    requires MigrateSkills(name, attribute, schema).Ok?
    requires attribute.skills.Some? && StoredKeys(attribute.skills.value)
    requires 0 <= j < |attribute.skills.value| && LastWithTarget(attribute.skills.value, j)
    requires Rename(attribute.skills.value[j].0).None?
    ensures var (skillName, skill) := attribute.skills.value[j];
            var t := Target(name);
            var skills := MigrateSkills(name, attribute, schema).value;
            && skill.Skill?
            && t in schema && skillName in schema[t].skills && skillName in skills
            && skills[skillName] == SetSkill(schema[t].skills[skillName], Coerce(skill.value), skill.fields)
            && DeletionKey(skillName) !in skills
  {
    var entries := attribute.skills.value;
    RenameKeysLast(entries, SkillBuilder(Target(name), schema), DeleteSkill, j);
    RenameKeysNoDeletion(entries, SkillBuilder(Target(name), schema), DeleteSkill, entries[j].0);
  }

  /** The attribute keys of the payload are exactly the stored keys' targets
      and the deletion keys of the renamed ones. */
  lemma PayloadAttributeKeys(actor: Actor, schema: Schema)
    requires MigrateActor(actor, schema).Ok?
    ensures forall key :: key in MigrateActor(actor, schema).value.attributes <==>
              exists i :: 0 <= i < |AttributesOf(actor)| &&
                (key == Target(AttributesOf(actor)[i].0) ||
                 (Rename(AttributesOf(actor)[i].0).Some? && key == DeletionKey(AttributesOf(actor)[i].0)))
  {
    RenameKeysKeys(AttributesOf(actor), AttributeBuilder(schema), DeleteAttribute);
  }

  /** Keys that are final names: no entry of the rename table renames them. */
  predicate FinalKeys(keys: set<string>) {
    forall key :: key in keys && !IsDeletionKey(key) ==> Rename(key).None?
  }

  /** A built attribute entry is never a deletion marker, and its skills are
      the skills object built for it. */
  lemma MigratedAttributeSkills(name: string, attribute: Attribute, schema: Schema)
    requires MigrateAttribute(name, attribute, schema).Ok?
    ensures MigrateSkills(name, attribute, schema).Ok?
    ensures !MigrateAttribute(name, attribute, schema).value.DeleteAttribute?
    ensures MigrateAttribute(name, attribute, schema).value.skills == MigrateSkills(name, attribute, schema).value
    ensures Rename(name).None? ==> MigrateAttribute(name, attribute, schema).value.SkillsOnly?
  {
  }

  /** The payload names every attribute and every skill by a final name, so a
      second run over the updated actor finds nothing left to rename. */
  lemma MigratedKeysFinal(actor: Actor, schema: Schema)
    requires MigrateActor(actor, schema).Ok?
    requires StoredKeys(AttributesOf(actor))
    ensures var payload := MigrateActor(actor, schema).value.attributes;
            && FinalKeys(payload.Keys)
            && forall key :: key in payload && !payload[key].DeleteAttribute? ==> FinalKeys(payload[key].skills.Keys)
  {
    var attributes := AttributesOf(actor);
    var b := AttributeBuilder(schema);
    var payload := MigrateActor(actor, schema).value.attributes;
    RenameKeysFinal(attributes, b, DeleteAttribute);
    RenameKeysValues(attributes, b, DeleteAttribute);
    forall key | key in payload && !payload[key].DeleteAttribute?
      ensures FinalKeys(payload[key].skills.Keys)
    {
      var i :| 0 <= i < |attributes| && Target(attributes[i].0) == key &&
               MigrateAttribute(attributes[i].0, attributes[i].1, schema) == Ok(payload[key]);
      MigratedAttributeSkills(attributes[i].0, attributes[i].1, schema);
      var skills := attributes[i].1.skills.value;
      RenameKeysFinal(skills, SkillBuilder(Target(attributes[i].0), schema), DeleteSkill);
    }
  }

  /** Every stored attribute and skill key is already a final name. */
  predicate AlreadyMigrated(actor: Actor) {
    && (forall i :: 0 <= i < |AttributesOf(actor)| ==> Rename(AttributesOf(actor)[i].0).None?)
    && forall i :: 0 <= i < |AttributesOf(actor)| && AttributesOf(actor)[i].1.skills.Some? ==>
         var skills := AttributesOf(actor)[i].1.skills.value;
         forall j :: 0 <= j < |skills| ==> Rename(skills[j].0).None?
  }

  /** An entry whose key is not renamed writes exactly its own key. */
  lemma WritesUnrenamed(k: string, key: string)
    requires Rename(k).None?
    ensures Writes(k, key) <==> key == k
  {
  }

  /** A stored object none of whose keys is renamed is rebuilt under exactly
      its own keys. */
  lemma UnrenamedKeys<T, P, E>(entries: Entries<T>, build: (string, T) -> Result<P, E>, marker: P)
    requires RenameKeys(entries, build, marker).Ok?
    requires StoredKeys(entries)
    requires forall i :: 0 <= i < |entries| ==> Rename(entries[i].0).None?
    ensures forall key :: key in RenameKeys(entries, build, marker).value <==>
              exists i :: 0 <= i < |entries| && entries[i].0 == key
    ensures forall key :: key in RenameKeys(entries, build, marker).value ==> !IsDeletionKey(key)
  {
    var m := RenameKeys(entries, build, marker).value;
    RenameKeysKeys(entries, build, marker);
    forall key ensures key in m <==> exists i :: 0 <= i < |entries| && entries[i].0 == key {
      if key in m {
        var i :| 0 <= i < |entries| && Writes(entries[i].0, key);
        WritesUnrenamed(entries[i].0, key);
      } else {
        forall i | 0 <= i < |entries| ensures entries[i].0 != key {
          WritesUnrenamed(entries[i].0, key);
        }
      }
    }
  }

  /** On an actor already migrated the payload renames and deletes nothing:
      its attribute keys are the stored keys, none is a deletion key, and each
      attribute only carries its skills under their own keys. */
  lemma AlreadyMigratedActor(actor: Actor, schema: Schema)
    requires MigrateActor(actor, schema).Ok?
    requires StoredActor(actor) && AlreadyMigrated(actor)
    ensures var payload := MigrateActor(actor, schema).value.attributes;
            && (forall key :: key in payload <==> exists i :: 0 <= i < |AttributesOf(actor)| && AttributesOf(actor)[i].0 == key)
            && (forall key :: key in payload ==> !IsDeletionKey(key) && payload[key].SkillsOnly?)
            && (forall key, s :: key in payload && payload[key].SkillsOnly? && s in payload[key].skills ==> !IsDeletionKey(s))
  {
    var attributes := AttributesOf(actor);
    var b := AttributeBuilder(schema);
    var payload := MigrateActor(actor, schema).value.attributes;
    UnrenamedKeys(attributes, b, DeleteAttribute);
    RenameKeysValues(attributes, b, DeleteAttribute);
    forall key | key in payload
      ensures payload[key].SkillsOnly? && forall s :: s in payload[key].skills ==> !IsDeletionKey(s)
    {
      var i :| 0 <= i < |attributes| && Target(attributes[i].0) == key &&
               MigrateAttribute(attributes[i].0, attributes[i].1, schema) == Ok(payload[key]);
      UnrenamedAttributeEntry(attributes[i].0, attributes[i].1, schema);
    }
  }

  /** The entry of an attribute whose own key and skill keys are final only
      carries its skills, under their own keys. */
  lemma UnrenamedAttributeEntry(name: string, attribute: Attribute, schema: Schema)
    requires MigrateAttribute(name, attribute, schema).Ok?
    requires Rename(name).None?
    requires attribute.skills.Some? ==> StoredKeys(attribute.skills.value)
    requires attribute.skills.Some? ==>
               forall j :: 0 <= j < |attribute.skills.value| ==> Rename(attribute.skills.value[j].0).None?
    ensures MigrateAttribute(name, attribute, schema).value.SkillsOnly?
    ensures forall s :: s in MigrateAttribute(name, attribute, schema).value.skills ==> !IsDeletionKey(s)
  {
    MigratedAttributeSkills(name, attribute, schema);
    UnrenamedKeys(attribute.skills.value, SkillBuilder(Target(name), schema), DeleteSkill);
  }
}

=== FILE: js_values.dfy ===
/**
 The values the migration reads out of the host's stored documents, and the
 failure-compatible wrappers the rest of the model uses for JavaScript's
 `undefined` results and thrown errors.
 */
module JsValues {

  /** A scalar JavaScript value. Numbers are restricted to the integers and
      NaN; fractions, infinities and negative zero are not represented. */
  datatype Value = Undefined | Null | Bool(b: bool) | Num(n: int) | NaN | Str(s: string)

  /** `typeof v === "number"` */
  predicate IsNumber(v: Value) {
    v.Num? || v.NaN?
  }

  /** An optional value; `None` stands for a failed parse or an absent field. */
  datatype Option<+T> = None | Some(value: T) {
    function GetOr(default: T): T {
      match this
      case Some(v) => v
      case None => default
    }
  }

  /** The outcome of a computation that may throw: `Err` carries what was thrown. */
  datatype Result<+T, +E> = Ok(value: T) | Err(error: E) {
    predicate IsFailure() {
      Err?
    }

    function PropagateFailure<U>(): Result<U, E>
      requires Err?
    {
      Err(error)
    }

    function Extract(): T
      requires Ok?
    {
      value
    }
  }
}

=== FILE: key_renaming.dfy ===
/**
 The loop the migration runs twice, over an actor's attributes and over each
 attribute's skills: for every key of a stored object, in `Object.keys`
 order, build the payload entry; write a renamed key under its new name and
 mark the old key for deletion, and write any other key under itself. The
 first entry that throws aborts the whole loop.
 */
module KeyRenaming {
  import opened JsValues
  import opened RenameTable

  /** The own properties of a stored object, in `Object.keys` order. */
  type Entries<T> = seq<(string, T)>

  /** No key of a stored object begins with the deletion prefix: the host
      reads such a key in an update as a deletion, so it never reaches storage. */
  predicate StoredKeys<T>(entries: Entries<T>) {
    forall i :: 0 <= i < |entries| ==> !IsDeletionKey(entries[i].0)
  }

  /** The entry with key `k` writes the payload key `key`. */
  predicate Writes(k: string, key: string) {
    key == Target(k) || (Rename(k).Some? && key == DeletionKey(k))
  }

  /** Entry `i` is the last one written under its target, so its value is the
      one the payload keeps there. */
  predicate LastWithTarget<T>(entries: Entries<T>, i: int)
    requires 0 <= i < |entries|
  {
    forall j :: i < j < |entries| ==> Target(entries[j].0) != Target(entries[i].0)
  }

  /** One iteration's writes into the payload object. */
  function Write<P>(m: map<string, P>, k: string, p: P, marker: P): map<string, P> {
    match Rename(k)
    case Some(n) => m[n := p][DeletionKey(k) := marker]
    case None => m[k := p]
  }

  /** One iteration adds exactly the keys the entry writes. */
  lemma WriteKeys<P>(m: map<string, P>, k: string, p: P, marker: P)
    ensures forall key :: key in Write(m, k, p, marker) <==> key in m || Writes(k, key)
  {
  }

  /** One iteration leaves every key it does not write as it was, and a
      target that is no deletion key receives the built entry. */
  lemma WriteValues<P>(m: map<string, P>, k: string, p: P, marker: P)
    requires !IsDeletionKey(k)
    ensures Write(m, k, p, marker)[Target(k)] == p
    ensures Rename(k).Some? ==> Write(m, k, p, marker)[DeletionKey(k)] == marker
    ensures forall key :: key in m && !Writes(k, key) ==> Write(m, k, p, marker)[key] == m[key]
  {
    if Rename(k).Some? {
      RenameTargets(k);
      TargetIsNotDeletionKey(k);
    }
  }

  /** The whole loop: `build` makes the payload entry of one stored entry and
      `marker` is the `null` written under a deletion key. */
  function RenameKeys<T, P, E>(entries: Entries<T>, build: (string, T) -> Result<P, E>, marker: P): Result<map<string, P>, E>
    decreases |entries|
  {
    if entries == [] then Ok(map[])
    else
      var prev :- RenameKeys(entries[..|entries| - 1], build, marker);
      var last := entries[|entries| - 1];
      var p :- build(last.0, last.1);
      Ok(Write(prev, last.0, p, marker))
  }

  /** The loop completes exactly when no entry throws. */
  lemma {:induction false} RenameKeysOk<T, P, E>(entries: Entries<T>, build: (string, T) -> Result<P, E>, marker: P)
    ensures RenameKeys(entries, build, marker).Ok? <==>
            forall i :: 0 <= i < |entries| ==> build(entries[i].0, entries[i].1).Ok?
    decreases |entries|
  {
    if entries != [] {
      var init := entries[..|entries| - 1];
      RenameKeysOk(init, build, marker);
      assert forall i :: 0 <= i < |init| ==> init[i] == entries[i];
    }
  }

  /** When the loop throws, it throws what the first failing entry throws. */
  lemma {:induction false} RenameKeysFirstError<T, P, E>(entries: Entries<T>, build: (string, T) -> Result<P, E>, marker: P)
    requires RenameKeys(entries, build, marker).Err?
    ensures exists i :: 0 <= i < |entries| && build(entries[i].0, entries[i].1) == Err(RenameKeys(entries, build, marker).error) &&
                        forall j :: 0 <= j < i ==> build(entries[j].0, entries[j].1).Ok?
    decreases |entries|
  {
    var n := |entries|;
    var init := entries[..n - 1];
    assert forall i :: 0 <= i < |init| ==> init[i] == entries[i];
    if RenameKeys(init, build, marker).Err? {
      RenameKeysFirstError(init, build, marker);
      var i :| 0 <= i < |init| && build(init[i].0, init[i].1) == Err(RenameKeys(init, build, marker).error) &&
               forall j :: 0 <= j < i ==> build(init[j].0, init[j].1).Ok?;
      assert build(entries[i].0, entries[i].1) == Err(RenameKeys(entries, build, marker).error);
    } else {
      RenameKeysOk(init, build, marker);
      assert build(entries[n - 1].0, entries[n - 1].1) == Err(RenameKeys(entries, build, marker).error);
    }
  }

  /** Some stored entry writes the payload key `key`. */
  predicate WrittenBy<T>(entries: Entries<T>, key: string) {
    exists i :: 0 <= i < |entries| && Writes(entries[i].0, key)
  }

  /** The keys written by a prefix and its next entry. */
  lemma WrittenBySnoc<T>(entries: Entries<T>, key: string)
    requires entries != []
    ensures WrittenBy(entries, key) <==>
            WrittenBy(entries[..|entries| - 1], key) || Writes(entries[|entries| - 1].0, key)
  {
    var init := entries[..|entries| - 1];
    if WrittenBy(entries, key) {
      var i :| 0 <= i < |entries| && Writes(entries[i].0, key);
      if i < |init| {
        assert init[i] == entries[i];
      }
    }
    if WrittenBy(init, key) {
      var i :| 0 <= i < |init| && Writes(init[i].0, key);
      assert init[i] == entries[i];
    }
  }

  /** The payload holds exactly the keys the entries write: each entry's target,
      and the deletion key of each renamed entry. */
  lemma {:induction false} RenameKeysKeys<T, P, E>(entries: Entries<T>, build: (string, T) -> Result<P, E>, marker: P)
    requires RenameKeys(entries, build, marker).Ok?
    ensures forall key :: key in RenameKeys(entries, build, marker).value <==> WrittenBy(entries, key)
    decreases |entries|
  {
    if entries != [] {
      var n := |entries|;
      var init := entries[..n - 1];
      RenameKeysKeys(init, build, marker);
      var last := entries[n - 1];
      var prev := RenameKeys(init, build, marker).value;
      var p := build(last.0, last.1).value;
      assert RenameKeys(entries, build, marker).value == Write(prev, last.0, p, marker);
      WriteKeys(prev, last.0, p, marker);
      forall key ensures WrittenBy(entries, key) <==> WrittenBy(init, key) || Writes(last.0, key) {
        WrittenBySnoc(entries, key);
      }
    }
  }

  /** The payload entry under a target is the one built for the last stored
      entry with that target. */
  lemma {:induction false} RenameKeysLast<T, P, E>(entries: Entries<T>, build: (string, T) -> Result<P, E>, marker: P, i: int)
    requires RenameKeys(entries, build, marker).Ok?
    requires StoredKeys(entries)
    requires 0 <= i < |entries| && LastWithTarget(entries, i)
    ensures build(entries[i].0, entries[i].1).Ok?
    ensures Target(entries[i].0) in RenameKeys(entries, build, marker).value
    ensures RenameKeys(entries, build, marker).value[Target(entries[i].0)] == build(entries[i].0, entries[i].1).value
    decreases |entries|
  {
    var n := |entries|;
    var init := entries[..n - 1];
    assert forall j :: 0 <= j < |init| ==> init[j] == entries[j];
    RenameKeysOk(entries, build, marker);
    var last := entries[n - 1];
    var prev := RenameKeys(init, build, marker).value;
    var p := build(last.0, last.1).value;
    assert RenameKeys(entries, build, marker).value == Write(prev, last.0, p, marker);
    WriteKeys(prev, last.0, p, marker);
    WriteValues(prev, last.0, p, marker);
    if i < n - 1 {
      var t := Target(entries[i].0);
      RenameKeysLast(init, build, marker, i);
      TargetIsNotDeletionKey(entries[i].0);
      assert !Writes(last.0, t);
    }
  }

  /** Every renamed stored key is marked for deletion in the payload. */
  lemma {:induction false} RenameKeysDeletion<T, P, E>(entries: Entries<T>, build: (string, T) -> Result<P, E>, marker: P, i: int)
    requires RenameKeys(entries, build, marker).Ok?
    requires StoredKeys(entries)
    requires 0 <= i < |entries| && Rename(entries[i].0).Some?
    ensures DeletionKey(entries[i].0) in RenameKeys(entries, build, marker).value
    ensures RenameKeys(entries, build, marker).value[DeletionKey(entries[i].0)] == marker
    decreases |entries|
  {
    var n := |entries|;
    var init := entries[..n - 1];
    assert forall j :: 0 <= j < |init| ==> init[j] == entries[j];
    RenameKeysOk(entries, build, marker);
    var last := entries[n - 1];
    var prev := RenameKeys(init, build, marker).value;
    var p := build(last.0, last.1).value;
    assert RenameKeys(entries, build, marker).value == Write(prev, last.0, p, marker);
    WriteKeys(prev, last.0, p, marker);
    WriteValues(prev, last.0, p, marker);
    if i < n - 1 {
      RenameKeysDeletion(init, build, marker, i);
      TargetIsNotDeletionKey(last.0);
    }
  }

  /** A stored key that is not renamed gets no deletion marker. */
  lemma RenameKeysNoDeletion<T, P, E>(entries: Entries<T>, build: (string, T) -> Result<P, E>, marker: P, k: string)
    requires RenameKeys(entries, build, marker).Ok?
    requires StoredKeys(entries)
    requires Rename(k).None?
    ensures DeletionKey(k) !in RenameKeys(entries, build, marker).value
  {
    RenameKeysKeys(entries, build, marker);
    forall i | 0 <= i < |entries| ensures !Writes(entries[i].0, DeletionKey(k)) {
      var e := entries[i].0;
      TargetIsNotDeletionKey(e);
      assert DeletionKey(e)[2..] == e && DeletionKey(k)[2..] == k;
    }
    assert !WrittenBy(entries, DeletionKey(k));
  }

  /** Every payload value is a deletion marker under a deletion key, or the
      entry built for some stored entry with that key as its target. */
  lemma {:induction false} RenameKeysValues<T, P, E>(entries: Entries<T>, build: (string, T) -> Result<P, E>, marker: P)
    requires RenameKeys(entries, build, marker).Ok?
    requires StoredKeys(entries)
    ensures forall key :: key in RenameKeys(entries, build, marker).value ==>
              || (IsDeletionKey(key) && RenameKeys(entries, build, marker).value[key] == marker)
              || exists i :: 0 <= i < |entries| && Target(entries[i].0) == key &&
                             build(entries[i].0, entries[i].1) == Ok(RenameKeys(entries, build, marker).value[key])
    decreases |entries|
  {
    if entries != [] {
      var n := |entries|;
      var init := entries[..n - 1];
      assert forall j :: 0 <= j < |init| ==> init[j] == entries[j];
      RenameKeysOk(entries, build, marker);
      RenameKeysValues(init, build, marker);
      var last := entries[n - 1];
      var prev := RenameKeys(init, build, marker).value;
      var p := build(last.0, last.1).value;
      var m := RenameKeys(entries, build, marker).value;
      assert m == Write(prev, last.0, p, marker);
      WriteKeys(prev, last.0, p, marker);
      WriteValues(prev, last.0, p, marker);
      forall key | key in m
        ensures || (IsDeletionKey(key) && m[key] == marker)
                || exists i :: 0 <= i < n && Target(entries[i].0) == key && build(entries[i].0, entries[i].1) == Ok(m[key])
      {
        if key == Target(last.0) {
          assert build(entries[n - 1].0, entries[n - 1].1) == Ok(m[key]);
        } else if Rename(last.0).Some? && key == DeletionKey(last.0) {
          assert IsDeletionKey(key);
        } else {
          assert key in prev && m[key] == prev[key];
        }
      }
    }
  }

  /** Every key the loop writes is a deletion key or a name the table does not
      rename: the payload never mentions an old name except to delete it. */
  lemma RenameKeysFinal<T, P, E>(entries: Entries<T>, build: (string, T) -> Result<P, E>, marker: P)
    requires RenameKeys(entries, build, marker).Ok?
    ensures forall key :: key in RenameKeys(entries, build, marker).value ==> IsDeletionKey(key) || Rename(key).None?
  {
    RenameKeysKeys(entries, build, marker);
    forall key | key in RenameKeys(entries, build, marker).value
      ensures IsDeletionKey(key) || Rename(key).None?
    {
      var i :| 0 <= i < |entries| && Writes(entries[i].0, key);
      if Rename(entries[i].0).Some? {
        RenameTargets(entries[i].0);
      }
    }
  }

  /** The loop over a single entry: that entry's build, written into an empty
      payload. */
  lemma RenameKeysSingle<T, P, E>(k: string, v: T, build: (string, T) -> Result<P, E>, marker: P)
    ensures build(k, v).Ok? ==> RenameKeys([(k, v)], build, marker) == Ok(Write(map[], k, build(k, v).value, marker))
    ensures build(k, v).Err? ==> RenameKeys([(k, v)], build, marker) == Err(build(k, v).error)
  {
    assert [(k, v)][..0] == [];
  }
}

=== FILE: migration_examples.dfy ===
/**
 One character migrated end to end: an `insight` attribute holding a `tinker`
 skill rated "5".
 */
module MigrationExamples {
  import opened JsValues
  import opened NumberParsing
  import opened RenameTable
  import opened KeyRenaming
  import opened ActorMigration

  /** The stored `insight` attribute. */
  function InsightAttribute(): Attribute {
    Attribute("Insight", Some([("tinker", Skill("Tinker", Str("5"), map[]))]), map[])
  }

  /** A character whose only attribute is the one above. */
  function InsightTinkerActor(): Actor {
    Actor("a1", "character", Some([("insight", InsightAttribute())]), Num(0), [])
  }

  /** A schema that knows `intuition` and its `engineer` skill. */
  predicate IsIntuitionSchema(schema: Schema) {
    schema == map["intuition" := SchemaAttribute("Intuition", map["engineer" := "Engineer"])]
  }

  /** The actor gets `intuition` with the `engineer` skill rated 5, and both
      old keys are marked for deletion. */
  lemma InsightTinkerExample(schema: Schema)
    requires IsIntuitionSchema(schema)
    ensures var r := MigrateActor(InsightTinkerActor(), schema);
            && r.Ok?
            && r.value.attributes == map[
                 "intuition" := Moved("Intuition", map["engineer" := SetSkill("Engineer", Num(5), map[]), "-=tinker" := DeleteSkill], map[]),
                 "-=insight" := DeleteAttribute]
            && r.value.healingClock == None
            && r.value.effects == []
  {
    var skills := InsightTinkerSkills(schema);
    var moved := Moved("Intuition", skills, map[]);
    InsightBuilt(schema, skills);
    RenameKeysSingle("insight", InsightAttribute(), AttributeBuilder(schema), DeleteAttribute);
    InsightWritten(moved);
  }

  lemma InsightBuilt(schema: Schema, skills: map<string, SkillPatch>)
    requires IsIntuitionSchema(schema)
    requires MigrateSkills("insight", InsightAttribute(), schema) == Ok(skills)
    ensures AttributeBuilder(schema)("insight", InsightAttribute()) == Ok(Moved("Intuition", skills, map[]))
  {
    RenameInsight();
  }

  lemma InsightWritten(moved: AttributePatch)
    ensures Write(map[], "insight", moved, DeleteAttribute) == map["intuition" := moved, "-=insight" := DeleteAttribute]
  {
    RenameInsight();
    WriteRenamed("insight", moved, DeleteAttribute);
    assert "-=" + "insight" == "-=insight";
  }

  lemma RenameInsight()
    ensures Rename("insight") == Some("intuition")
  {
  }

  lemma RenameTinker()
    ensures Rename("tinker") == Some("engineer")
  {
  }

  lemma CoerceFive()
    ensures Coerce(Str("5")) == Num(5)
  {
    CoerceDecimalString(5);
    assert IntToString(5) == "5";
  }

  /** Writing a renamed entry into an empty payload. */
  lemma WriteRenamed<P>(k: string, p: P, marker: P)
    requires Rename(k).Some?
    ensures Write(map[], k, p, marker) == map[Rename(k).value := p, "-=" + k := marker]
  {
  }

  /** The skills of `insight` become `engineer` rated 5 and `-=tinker`. */
  lemma InsightTinkerSkills(schema: Schema) returns (skills: map<string, SkillPatch>)
    requires IsIntuitionSchema(schema)
    ensures MigrateSkills("insight", InsightAttribute(), schema) == Ok(skills)
    ensures skills == map["engineer" := SetSkill("Engineer", Num(5), map[]), "-=tinker" := DeleteSkill]
  {
    var skill := Skill("Tinker", Str("5"), map[]);
    var set5 := SetSkill("Engineer", Num(5), map[]);
    var b := SkillBuilder("intuition", schema);
    CoerceFive();
    TinkerBuilt(schema, Str("5"), Num(5));
    RenameKeysSingle("tinker", skill, b, DeleteSkill);
    TinkerWritten(set5);
    InsightSkillsLoop(schema);
    skills := map["engineer" := set5, "-=tinker" := DeleteSkill];
  }

  /** A `tinker` skill under `intuition` is built with its coerced rating. */
  lemma TinkerBuilt(schema: Schema, v: Value, n: Value)
    requires IsIntuitionSchema(schema)
    requires Coerce(v) == n
    ensures SkillBuilder("intuition", schema)("tinker", Skill("Tinker", v, map[])) == Ok(SetSkill("Engineer", n, map[]))
  {
    SkillBuilderApplies("intuition", schema, "tinker", Skill("Tinker", v, map[]));
    TinkerMigrated(schema, v, n);
  }

  lemma SkillBuilderApplies(attribute: string, schema: Schema, name: string, skill: Skill)
    ensures SkillBuilder(attribute, schema)(name, skill) == MigrateSkill(attribute, name, skill, schema)
  {
  }

  lemma TinkerMigrated(schema: Schema, v: Value, n: Value)
    requires IsIntuitionSchema(schema)
    requires Coerce(v) == n
    ensures MigrateSkill("intuition", "tinker", Skill("Tinker", v, map[]), schema) == Ok(SetSkill("Engineer", n, map[]))
  {
    RenameTinker();
    assert SchemaSkillLabel(schema, "intuition", "engineer") == Ok("Engineer");
  }

  lemma TinkerWritten(set5: SkillPatch)
    ensures Write(map[], "tinker", set5, DeleteSkill) == map["engineer" := set5, "-=tinker" := DeleteSkill]
  {
    RenameTinker();
    WriteRenamed("tinker", set5, DeleteSkill);
    assert "-=" + "tinker" == "-=tinker";
  }

  lemma InsightSkillsLoop(schema: Schema)
    ensures MigrateSkills("insight", InsightAttribute(), schema) ==
            RenameKeys([("tinker", Skill("Tinker", Str("5"), map[]))], SkillBuilder("intuition", schema), DeleteSkill)
  {
    RenameInsight();
  }
}

=== FILE: number_parsing.dfy ===
/**
 The global `parseInt` of ECMAScript (section 19.2.5 of ECMA-262) called
 without a radix, the ToString conversion it starts with, the decimal
 rendering of integers it inverts, and the coercion the migration applies to
 skill values and to the healing clock.
 */
module NumberParsing {
  import opened JsValues

  /** StrWhiteSpaceChar: the WhiteSpace and LineTerminator code points
      (sections 12.2 and 12.3 of ECMA-262), Unicode category Zs included. */
  predicate IsStrWhiteSpace(c: char) {
    || c == '\U{9}' || c == '\U{B}' || c == '\U{C}' || c == '\U{20}' || c == '\U{A0}'
    || c == '\U{FEFF}' || c == '\U{1680}' || ('\U{2000}' <= c <= '\U{200A}')
    || c == '\U{202F}' || c == '\U{205F}' || c == '\U{3000}'
    || c == '\U{A}' || c == '\U{D}' || c == '\U{2028}' || c == '\U{2029}'
  }

  /** The string with its leading white space removed. */
  function TrimStart(s: string): (r: string)
    ensures |r| <= |s| && r == s[|s| - |r|..]
    ensures forall i :: 0 <= i < |s| - |r| ==> IsStrWhiteSpace(s[i])
    ensures r == [] || !IsStrWhiteSpace(r[0])
  {
    if |s| > 0 && IsStrWhiteSpace(s[0]) then TrimStart(s[1..]) else s
  }

  /** The value of `c` as a digit of radix 36, or 36 when it is none. */
  function DigitValue(c: char): (d: nat)
    ensures d <= 36
  {
    if '0' <= c <= '9' then (c - '0') as nat
    else if 'a' <= c <= 'z' then (c - 'a') as nat + 10
    else if 'A' <= c <= 'Z' then (c - 'A') as nat + 10
    else 36
  }

  predicate IsDigit(c: char, radix: nat) {
    DigitValue(c) < radix
  }

  /** A digit of radix 10, which is exactly a character from `0` to `9`. */
  predicate IsDecimalDigit(c: char) {
    IsDigit(c, 10)
  }

  /** The longest prefix of `s` made of digits of the radix. */
  function LeadingDigits(s: string, radix: nat): (z: string)
    ensures |z| <= |s| && z == s[..|z|]
    ensures forall i :: 0 <= i < |z| ==> IsDigit(z[i], radix)
    ensures |z| == |s| || !IsDigit(s[|z|], radix)
  {
    if s == [] || !IsDigit(s[0], radix) then [] else [s[0]] + LeadingDigits(s[1..], radix)
  }

  /** The mathematical value of a digit string in the radix. */
  function DigitsValue(z: string, radix: nat): nat {
    if z == [] then 0
    else
      var d := DigitValue(z[|z| - 1]);
      DigitsValue(z[..|z| - 1], radix) * radix + (if d < radix then d else 0)
  }

  /** `parseInt(s)` with the radix left undefined; `None` is the NaN result.
      The value is the exact integer read: JavaScript's -0 for `"-0"`, its
      rounding above 2^53 and its Infinity for very long digit runs are not
      represented. */
  function ParseInt(s: string): Option<int> {
    ParseSigned(TrimStart(s))
  }

  /** The steps of `parseInt` after white space: an optional sign, then the
      magnitude. A leading minus negates the result. */
  function ParseSigned(t: string): Option<int> {
    var u := if |t| > 0 && (t[0] == '-' || t[0] == '+') then t[1..] else t;
    match ParseMagnitude(u)
    case None => None
    case Some(m) => if |t| > 0 && t[0] == '-' then Some(-m) else Some(m)
  }

  /** The magnitude: a `0x` or `0X` prefix selects radix 16, otherwise radix 10;
      the longest run of digits of that radix is read, and none at all is NaN. */
  function ParseMagnitude(u: string): (r: Option<int>)
    ensures r.Some? ==> r.value >= 0
  {
    var hex := |u| >= 2 && u[0] == '0' && (u[1] == 'x' || u[1] == 'X');
    var radix := if hex then 16 else 10;
    var z := LeadingDigits(if hex then u[2..] else u, radix);
    if z == [] then None else Some(DigitsValue(z, radix))
  }

  /** The decimal digit character for `d`. */
  function DecimalChar(d: nat): (c: char)
    requires d < 10
    ensures IsDecimalDigit(c) && DigitValue(c) == d
  {
    '0' + d as char
  }

  /** The decimal rendering of a natural number, without leading zeros. */
  function NatToString(n: nat): (s: string)
    ensures |s| > 0 && forall i :: 0 <= i < |s| ==> IsDecimalDigit(s[i])
    ensures s[0] == '0' ==> n == 0
  {
    if n < 10 then [DecimalChar(n)] else NatToString(n / 10) + [DecimalChar(n % 10)]
  }

  /** The decimal rendering of an integer. This is what Number::toString
      (section 6.1.6.1.20 of ECMA-262) gives for integers of magnitude below
      10^21; JavaScript writes larger ones in exponent notation. */
  function IntToString(n: int): (s: string)
    ensures |s| > 0 && (IsDecimalDigit(s[0]) || s[0] == '-')
  {
    if n < 0 then "-" + NatToString(-n) else NatToString(n)
  }

  /** ToString (section 7.1.17 of ECMA-262) of the scalar values modelled. */
  function ToStr(v: Value): string {
    match v
    case Undefined => "undefined"
    case Null => "null"
    case Bool(b) => if b then "true" else "false"
    case Num(n) => IntToString(n)
    case NaN => "NaN"
    case Str(s) => s
  }

  /** `parseInt(v)`: ToString, then the parse; NaN when no integer is read. */
  function ParseIntOf(v: Value): (r: Value)
    ensures IsNumber(r)
  {
    match ParseInt(ToStr(v))
    case Some(n) => Num(n)
    case None => NaN
  }

  /** The migration's coercion: a number is kept, anything else becomes
      `parseInt(value)`. */
  function Coerce(v: Value): (r: Value)
    ensures IsNumber(r)
    ensures IsNumber(v) ==> r == v
    ensures !IsNumber(v) && r.Num? ==> ParseInt(ToStr(v)) == Some(r.n)
    ensures !IsNumber(v) && r.NaN? ==> ParseInt(ToStr(v)) == None
  {
    if IsNumber(v) then v else ParseIntOf(v)
  }

  /** Reading back the digits of a rendered natural gives the number. */
  lemma {:induction false} DigitsValueOfNatToString(n: nat)
    ensures DigitsValue(NatToString(n), 10) == n
  {
    if n >= 10 {
      var s := NatToString(n);
      assert s[..|s| - 1] == NatToString(n / 10);
      DigitsValueOfNatToString(n / 10);
    }
  }

  /** The digit scan stops exactly at the first non-digit. */
  lemma {:induction false} LeadingDigitsOfDigitsThen(z: string, tail: string, radix: nat)
    requires forall i :: 0 <= i < |z| ==> IsDigit(z[i], radix)
    requires tail == [] || !IsDigit(tail[0], radix)
    ensures LeadingDigits(z + tail, radix) == z
  {
    if z != [] {
      assert (z + tail)[1..] == z[1..] + tail;
      LeadingDigitsOfDigitsThen(z[1..], tail, radix);
    }
  }

  /** A non-empty run of decimal digits. */
  predicate IsDecimalRun(z: string) {
    z != [] && forall i :: 0 <= i < |z| ==> IsDecimalDigit(z[i])
  }

  /** The sign `parseInt` applies: a leading minus negates the magnitude. */
  function ApplySign(sign: string, m: nat): int {
    if sign == "-" then -(m as int) else m
  }

  /** A run of decimal digits, not read as a `0x` prefix, gives its value,
      whatever non-digit follows it. Leading zeros are allowed. */
  lemma MagnitudeOfDecimal(z: string, tail: string)
    requires IsDecimalRun(z)
    requires tail == [] || !IsDecimalDigit(tail[0])
    requires z == "0" && tail != [] ==> tail[0] != 'x' && tail[0] != 'X'
    ensures ParseMagnitude(z + tail) == Some(DigitsValue(z, 10))
  {
    var u := z + tail;
    assert !(|u| >= 2 && u[0] == '0' && (u[1] == 'x' || u[1] == 'X')) by {
      if |u| >= 2 && u[0] == '0' {
        if |z| >= 2 {
          assert u[1] == z[1] && IsDecimalDigit(z[1]);
        } else {
          assert z == "0";
          assert u[1] == tail[0];
        }
      }
    }
    LeadingDigitsOfDigitsThen(z, tail, 10);
  }

  /** `0x` or `0X` */
  predicate IsHexPrefix(x: string) {
    |x| == 2 && x[0] == '0' && (x[1] == 'x' || x[1] == 'X')
  }

  /** After a `0x` or `0X` prefix the hexadecimal digits are read; with none
      the result is NaN. */
  lemma MagnitudeOfHex(x: string, h: string, tail: string)
    requires IsHexPrefix(x)
    requires forall i :: 0 <= i < |h| ==> IsDigit(h[i], 16)
    requires tail == [] || !IsDigit(tail[0], 16)
    ensures ParseMagnitude(x + h + tail) == if h == [] then None else Some(DigitsValue(h, 16))
  {
    HexDigitsAfterPrefix(x, h, tail);
    HexMagnitude(x + h + tail, h);
  }

  lemma HexDigitsAfterPrefix(x: string, h: string, tail: string)
    requires IsHexPrefix(x)
    requires forall i :: 0 <= i < |h| ==> IsDigit(h[i], 16)
    requires tail == [] || !IsDigit(tail[0], 16)
    ensures var u := x + h + tail;
            |u| >= 2 && u[0] == '0' && (u[1] == 'x' || u[1] == 'X') && LeadingDigits(u[2..], 16) == h
  {
    var u := x + h + tail;
    assert u[2..] == h + tail;
    LeadingDigitsOfDigitsThen(h, tail, 16);
  }

  lemma HexMagnitude(u: string, h: string)
    requires |u| >= 2 && u[0] == '0' && (u[1] == 'x' || u[1] == 'X')
    requires LeadingDigits(u[2..], 16) == h
    ensures ParseMagnitude(u) == if h == [] then None else Some(DigitsValue(h, 16))
  {
  }

  /** An optional sign in front of a magnitude: a minus negates it. */
  lemma SignedMagnitude(sign: string, u: string)
    requires sign == "" || sign == "+" || sign == "-"
    requires u == [] || (u[0] != '+' && u[0] != '-')
    ensures ParseSigned(sign + u) ==
            match ParseMagnitude(u)
            case None => None
            case Some(m) => Some(ApplySign(sign, m))
  {
    var t := sign + u;
    if sign != "" {
      assert t[0] == sign[0] && t[1..] == u;
    } else {
      assert t == u;
    }
  }

  /** `parseInt` skips leading white space, takes an optional sign, and reads
      the decimal digits that follow, ignoring whatever comes after them. */
  lemma ParseIntReadsDecimal(ws: string, sign: string, z: string, tail: string)
    requires forall i :: 0 <= i < |ws| ==> IsStrWhiteSpace(ws[i])
    requires sign == "" || sign == "+" || sign == "-"
    requires IsDecimalRun(z)
    requires tail == [] || !IsDecimalDigit(tail[0])
    requires z == "0" && tail != [] ==> tail[0] != 'x' && tail[0] != 'X'
    ensures ParseInt(ws + sign + z + tail) == Some(ApplySign(sign, DigitsValue(z, 10)))
  {
    var u := z + tail;
    var t := sign + u;
    assert ws + sign + z + tail == ws + t;
    assert !IsStrWhiteSpace(t[0]) by {
      if sign == "" {
        assert t[0] == z[0] && IsDecimalDigit(z[0]);
      } else {
        assert t[0] == sign[0];
      }
    }
    TrimStartSkips(ws, t);
    MagnitudeOfDecimal(z, tail);
    assert u[0] == z[0] && IsDecimalDigit(z[0]);
    SignedMagnitude(sign, u);
  }

  /** With a `0x` or `0X` prefix after the sign, `parseInt` reads hexadecimal
      digits instead; a prefix with no digit after it gives NaN. */
  lemma ParseIntReadsHex(ws: string, sign: string, x: string, h: string, tail: string)
    requires forall i :: 0 <= i < |ws| ==> IsStrWhiteSpace(ws[i])
    requires sign == "" || sign == "+" || sign == "-"
    requires IsHexPrefix(x)
    requires forall i :: 0 <= i < |h| ==> IsDigit(h[i], 16)
    requires tail == [] || !IsDigit(tail[0], 16)
    ensures h == [] ==> ParseInt(ws + sign + x + h + tail) == None
    ensures h != [] ==> ParseInt(ws + sign + x + h + tail) == Some(ApplySign(sign, DigitsValue(h, 16)))
  {
    var u := x + h + tail;
    Regroup(ws, sign, x, h, tail);
    assert u[0] == x[0];
    SignedHex(sign, x, h, tail);
    SignedStart(sign, u);
    SkipSpace(ws, sign + u);
  }

  lemma Regroup(ws: string, sign: string, x: string, h: string, tail: string)
    ensures ws + sign + x + h + tail == ws + (sign + (x + h + tail))
  {
  }

  /** `parseInt` drops the leading white space and parses the rest. */
  lemma SkipSpace(ws: string, t: string)
    requires forall i :: 0 <= i < |ws| ==> IsStrWhiteSpace(ws[i])
    requires t != [] && !IsStrWhiteSpace(t[0])
    ensures ParseInt(ws + t) == ParseSigned(t)
  {
    TrimStartSkips(ws, t);
  }

  /** The signed form of a hexadecimal magnitude. */
  lemma SignedHex(sign: string, x: string, h: string, tail: string)
    requires sign == "" || sign == "+" || sign == "-"
    requires IsHexPrefix(x)
    requires forall i :: 0 <= i < |h| ==> IsDigit(h[i], 16)
    requires tail == [] || !IsDigit(tail[0], 16)
    ensures ParseSigned(sign + (x + h + tail)) == if h == [] then None else Some(ApplySign(sign, DigitsValue(h, 16)))
  {
    var u := x + h + tail;
    MagnitudeOfHex(x, h, tail);
    assert u[0] == x[0];
    var r: Option<nat> := if h == [] then None else Some(DigitsValue(h, 16));
    SignedOfMagnitude(sign, u, r);
  }

  lemma SignedOfMagnitude(sign: string, u: string, r: Option<nat>)
    requires sign == "" || sign == "+" || sign == "-"
    requires u != [] && u[0] == '0'
    requires ParseMagnitude(u) == r
    ensures ParseSigned(sign + u) == if r.None? then None else Some(ApplySign(sign, r.value))
  {
    SignedMagnitude(sign, u);
  }

  /** A signed string whose magnitude starts with a zero does not start
      with white space. */
  lemma SignedStart(sign: string, u: string)
    requires sign == "" || sign == "+" || sign == "-"
    requires u != [] && u[0] == '0'
    ensures !IsStrWhiteSpace((sign + u)[0])
  {
    if sign != "" {
      assert (sign + u)[0] == sign[0];
    } else {
      assert (sign + u)[0] == u[0];
    }
  }

  /** Leading white space in front of a non-blank string is dropped. */
  lemma {:induction false} TrimStartSkips(ws: string, rest: string)
    requires forall i :: 0 <= i < |ws| ==> IsStrWhiteSpace(ws[i])
    requires rest == [] || !IsStrWhiteSpace(rest[0])
    ensures TrimStart(ws + rest) == rest
  {
    if ws != [] {
      assert (ws + rest)[1..] == ws[1..] + rest;
      TrimStartSkips(ws[1..], rest);
    }
  }

  /** Decimal rendering and `parseInt` are inverse on the integers. */
  lemma ParseIntOfIntToString(n: int)
    ensures ParseInt(IntToString(n)) == Some(n)
  {
    var sign := if n < 0 then "-" else "";
    var m: nat := if n < 0 then -n else n;
    var digits := NatToString(m);
    assert IntToString(n) == [] + sign + digits + [];
    DigitsValueOfNatToString(m);
    ParseIntReadsDecimal([], sign, digits, []);
  }

  /** A string without any decimal digit has no leading integer: NaN. */
  lemma ParseIntWithoutDigits(s: string)
    requires forall i :: 0 <= i < |s| ==> !IsDecimalDigit(s[i])
    ensures ParseInt(s) == None
  {
    var t := TrimStart(s);
    var k := |s| - |t|;
    assert t == s[k..];
    forall i | 0 <= i < |t| ensures !IsDecimalDigit(t[i]) {
      assert t[i] == s[k + i];
    }
    SignedWithoutDigits(t);
  }

  lemma SignedWithoutDigits(t: string)
    requires forall i :: 0 <= i < |t| ==> !IsDecimalDigit(t[i])
    ensures ParseSigned(t) == None
  {
    var u := if |t| > 0 && (t[0] == '-' || t[0] == '+') then t[1..] else t;
    assert forall i :: 0 <= i < |u| ==> !IsDecimalDigit(u[i]) by {
      if |t| > 0 && (t[0] == '-' || t[0] == '+') {
        assert forall i :: 0 <= i < |u| ==> u[i] == t[i + 1];
      }
    }
    MagnitudeWithoutDigits(u);
  }

  lemma MagnitudeWithoutDigits(u: string)
    requires forall i :: 0 <= i < |u| ==> !IsDecimalDigit(u[i])
    ensures ParseMagnitude(u) == None
  {
    if u != [] {
      assert !IsDigit(u[0], 10);
    }
    assert LeadingDigits(u, 10) == [];
  }

  /** The coercion always yields a number, and coercing twice changes nothing. */
  lemma CoerceIdempotent(v: Value)
    ensures IsNumber(Coerce(v)) && Coerce(Coerce(v)) == Coerce(v)
  {
  }

  /** A decimal string becomes the integer it spells. */
  lemma CoerceDecimalString(n: int)
    ensures Coerce(Str(IntToString(n))) == Num(n)
  {
    ParseIntOfIntToString(n);
  }

  /** A rating string with a signed decimal number at its start, such as
      `"+05"` or `" 3 dice"`, becomes that number. */
  lemma CoerceLeadingDecimal(ws: string, sign: string, z: string, tail: string)
    requires forall i :: 0 <= i < |ws| ==> IsStrWhiteSpace(ws[i])
    requires sign == "" || sign == "+" || sign == "-"
    requires IsDecimalRun(z)
    requires tail == [] || !IsDecimalDigit(tail[0])
    requires z == "0" && tail != [] ==> tail[0] != 'x' && tail[0] != 'X'
    ensures Coerce(Str(ws + sign + z + tail)) == Num(ApplySign(sign, DigitsValue(z, 10)))
  {
    ParseIntReadsDecimal(ws, sign, z, tail);
  }

  /** A string with no digits, `undefined`, `null` and the booleans become NaN. */
  lemma CoerceWithoutDigits(v: Value)
    requires !IsNumber(v)
    requires v.Str? ==> forall i :: 0 <= i < |v.s| ==> !IsDecimalDigit(v.s[i])
    ensures Coerce(v) == NaN
  {
    var s := ToStr(v);
    forall i | 0 <= i < |s| ensures !IsDecimalDigit(s[i]) {
    }
    ParseIntWithoutDigits(s);
  }

  /** A skill value of "7" becomes the number 7. */
  lemma CoerceSeven()
    ensures Coerce(Str("7")) == Num(7)
  {
    CoerceDecimalString(7);
    assert IntToString(7) == "7";
  }

  /** A skill value of "abc" becomes NaN. */
  lemma CoerceLetters()
    ensures Coerce(Str("abc")) == NaN
  {
    CoerceWithoutDigits(Str("abc"));
  }
}

=== FILE: rename_table.dfy ===
/**
 The fixed table of old attribute and skill identifiers and their new names,
 the deletion-marker convention of update payloads, and the rewrite the
 migration applies to active-effect change keys.
 */
module RenameTable {
  import opened JsValues
  import opened StringReplace

  /** The rename table, in the insertion order the migration iterates it in. */
  const Table: seq<(string, string)> := [
    ("insight", "intuition"),
    ("prowess", "body"),
    ("resolve", "willpower"),
    ("tinker", "engineer"),
    ("hunt", "stalk"),
    ("skirmish", "fight"),
    ("sway", "influence")
  ]

  /** `map.get(k)` on a table given as entries with distinct keys. */
  function Lookup(entries: seq<(string, string)>, k: string): Option<string> {
    if entries == [] then None
    else if entries[0].0 == k then Some(entries[0].1)
    else Lookup(entries[1..], k)
  }

  /** A key is found exactly when some entry has it, and what is found is the
      new name of such an entry. */
  lemma {:induction false} LookupFinds(entries: seq<(string, string)>, k: string)
    ensures Lookup(entries, k).Some? <==> exists i :: 0 <= i < |entries| && entries[i].0 == k
    ensures Lookup(entries, k).Some? ==> exists i :: 0 <= i < |entries| && entries[i] == (k, Lookup(entries, k).value)
  {
    if entries != [] && entries[0].0 != k {
      LookupFinds(entries[1..], k);
      assert forall i :: 0 < i < |entries| ==> entries[i] == entries[1..][i - 1];
    }
  }

  /** The new name of an old identifier, or `None` when it is not renamed. */
  function Rename(k: string): Option<string> {
    Lookup(Table, k)
  }

  /** The key an entry is written under in a payload: its new name when it is
      renamed, its own key otherwise. */
  function Target(k: string): string {
    Rename(k).GetOr(k)
  }

  /** The prefix by which an update payload asks the host to delete a key. */
  const DeletionPrefix: string := "-="

  /** `-=${k}` */
  function DeletionKey(k: string): (r: string)
    ensures IsDeletionKey(r) && r[2..] == k
  {
    DeletionPrefix + k
  }

  predicate IsDeletionKey(k: string) {
    |k| >= 2 && k[..2] == DeletionPrefix
  }

  /** A key of the table's new names neither is renamed again nor asks for a
      deletion, and differs from the key it replaces. */
  lemma RenameTargets(k: string)
    requires Rename(k).Some?
    ensures Rename(k).value != k
    ensures !IsDeletionKey(Rename(k).value)
    ensures Rename(Rename(k).value).None?
  {
    var n := Rename(k).value;
    LookupFinds(Table, k);
    var i :| 0 <= i < |Table| && Table[i] == (k, n);
    TableEntry(i);
  }

  /** Each entry of the table: the new name differs from the old, does not
      begin with the deletion prefix and is no old name of any entry. */
  lemma TableEntry(i: int)
    requires 0 <= i < |Table|
    ensures Table[i].0 != Table[i].1
    ensures !IsDeletionKey(Table[i].1)
    ensures Lookup(Table, Table[i].1).None?
  {
    var names := ["insight", "prowess", "resolve", "tinker", "hunt", "skirmish", "sway"];
    assert forall j :: 0 <= j < |Table| ==> Table[j].0 == names[j];
    var n := Table[i].1;
    assert n in ["intuition", "body", "willpower", "engineer", "stalk", "fight", "influence"];
    assert n !in names;
    LookupFinds(Table, n);
    assert n[0] != DeletionPrefix[0];
    assert n[..2][0] == n[0];
  }

  /** A target never asks for a deletion when the key itself does not, and a
      deletion key is never a target of such a key. */
  lemma TargetIsNotDeletionKey(k: string)
    requires !IsDeletionKey(k)
    ensures !IsDeletionKey(Target(k))
    ensures forall k' :: Target(k) != DeletionKey(k')
  {
    if Rename(k).Some? {
      RenameTargets(k);
    }
    forall k' ensures Target(k) != DeletionKey(k') {
      assert IsDeletionKey(DeletionKey(k'));
    }
  }

  /** Applies `key.replaceAll(old, new)` once per entry, in order. */
  function RewriteWith(key: string, entries: seq<(string, string)>): string
    decreases |entries|
  {
    if entries == [] then key
    else RewriteWith(ReplaceAll(key, entries[0].0, entries[0].1), entries[1..])
  }

  /** The rewrite of an active-effect change key. */
  function RewriteKey(key: string): string {
    RewriteWith(key, Table)
  }

  /** Mentions one of the table's old identifiers. */
  predicate MentionsOldName(key: string) {
    exists i :: 0 <= i < |Table| && Occurs(key, Table[i].0)
  }

  /** Entries whose old names are absent from the key leave it unchanged. */
  lemma {:induction false} RewriteWithAbsent(key: string, entries: seq<(string, string)>)
    requires forall i :: 0 <= i < |entries| ==> entries[i].0 != [] && !Occurs(key, entries[i].0)
    ensures RewriteWith(key, entries) == key
    decreases |entries|
  {
    if entries != [] {
      ReplaceAllAbsent(key, entries[0].0, entries[0].1);
      assert forall i :: 0 <= i < |entries| - 1 ==> entries[1..][i] == entries[i + 1];
      RewriteWithAbsent(key, entries[1..]);
    }
  }

  /** A change key that mentions none of the old identifiers is kept as is. */
  lemma RewriteKeyUnchanged(key: string)
    requires !MentionsOldName(key)
    ensures RewriteKey(key) == key
  {
    RewriteWithAbsent(key, Table);
  }

  /** No old identifier is empty or holds a dot. */
  lemma OldNamesLackDot()
    ensures forall i :: 0 <= i < |Table| ==> Table[i].0 != [] && '.' !in Table[i].0
  {
    var names := ["insight", "prowess", "resolve", "tinker", "hunt", "skirmish", "sway"];
    assert forall j :: 0 <= j < |Table| ==> Table[j].0 == names[j];
  }

  /** A dot splits a key: the rewrite treats each side on its own. */
  lemma {:induction false} RewriteWithSplits(a: string, b: string, entries: seq<(string, string)>)
    requires forall i :: 0 <= i < |entries| ==> entries[i].0 != [] && '.' !in entries[i].0
    ensures RewriteWith(a + "." + b, entries) == RewriteWith(a, entries) + "." + RewriteWith(b, entries)
    decreases |entries|
  {
    if entries != [] {
      var (p, r) := entries[0];
      ReplaceAllSplits(a, '.', b, p, r);
      assert forall i :: 0 <= i < |entries| - 1 ==> entries[1..][i] == entries[i + 1];
      RewriteWithSplits(ReplaceAll(a, p, r), ReplaceAll(b, p, r), entries[1..]);
    }
  }

  /** The rewrite of a dotted key is the rewrite of each side, joined. */
  lemma RewriteKeyDot(a: string, b: string)
    ensures RewriteKey(a + "." + b) == RewriteKey(a) + "." + RewriteKey(b)
  {
    OldNamesLackDot();
    RewriteWithSplits(a, b, Table);
  }

  /** Entries whose old names are absent from the key are skipped. */
  lemma {:induction false} RewriteSkipsPrefix(key: string, j: nat)
    requires j <= |Table|
    requires forall i :: 0 <= i < j ==> !Occurs(key, Table[i].0)
    ensures RewriteWith(key, Table) == RewriteWith(key, Table[j..])
  {
    if j == 0 {
      assert Table[0..] == Table;
    } else {
      RewriteSkipsPrefix(key, j - 1);
      RewriteSkips(key, j - 1);
    }
  }

  /** An entry whose old name is absent from the key leaves it alone. */
  lemma RewriteSkips(key: string, i: nat)
    requires i < |Table| && !Occurs(key, Table[i].0)
    ensures RewriteWith(key, Table[i..]) == RewriteWith(key, Table[i + 1..])
  {
    assert Table[i].0 != [];
    ReplaceAllAbsent(key, Table[i].0, Table[i].1);
    assert Table[i..][1..] == Table[i + 1..];
  }

  /** The entry at `i` rewrites its old name to its new name when no
      earlier entry touches the old name and no later one the new name. */
  lemma RewriteAt(i: nat)
    requires i < |Table|
    requires forall j :: 0 <= j < i ==> !Occurs(Table[i].0, Table[j].0)
    requires forall j :: i < j < |Table| ==> !Occurs(Table[i].1, Table[j].0)
    ensures RewriteKey(Table[i].0) == Table[i].1
  {
    var (key, n) := Table[i];
    OldNamesLackDot();
    RewriteSkipsPrefix(key, i);
    ReplaceAllWhole(key, n);
    assert Table[i..][1..] == Table[i + 1..];
    assert RewriteWith(key, Table[i..]) == RewriteWith(n, Table[i + 1..]);
    var later := Table[i + 1..];
    assert forall k :: 0 <= k < |later| ==> later[k] == Table[i + 1 + k];
    RewriteWithAbsent(n, later);
  }

  lemma RewriteInsight()
    ensures RewriteKey(Table[0].0) == Table[0].1
  {
    var n := "intuition";
    assert Table[0].1 == n;
    AbsentCharacter(n, Table[1].0, 'p');
    AbsentCharacter(n, Table[2].0, 'r');
    AbsentCharacter(n, Table[3].0, 'k');
    AbsentCharacter(n, Table[4].0, 'h');
    AbsentCharacter(n, Table[5].0, 'h');
    AbsentCharacter(n, Table[6].0, 'w');
    RewriteAt(0);
  }

  lemma RewriteProwess()
    ensures RewriteKey(Table[1].0) == Table[1].1
  {
    var o, n := "prowess", "body";
    assert Table[1] == (o, n);
    AbsentCharacter(o, Table[0].0, 'g');
    AbsentCharacter(n, Table[2].0, 'r');
    AbsentCharacter(n, Table[3].0, 'k');
    AbsentCharacter(n, Table[4].0, 'h');
    AbsentCharacter(n, Table[5].0, 'h');
    AbsentCharacter(n, Table[6].0, 'w');
    RewriteAt(1);
  }

  lemma RewriteResolve()
    ensures RewriteKey(Table[2].0) == Table[2].1
  {
    var o, n := "resolve", "willpower";
    assert Table[2] == (o, n);
    AbsentCharacter(o, Table[0].0, 'g');
    AbsentCharacter(o, Table[1].0, 'p');
    AbsentCharacter(n, Table[3].0, 'k');
    AbsentCharacter(n, Table[4].0, 'h');
    AbsentCharacter(n, Table[5].0, 'h');
    AbsentCharacter(n, Table[6].0, 'y');
    RewriteAt(2);
  }

  lemma RewriteTinker()
    ensures RewriteKey(Table[3].0) == Table[3].1
  {
    var o, n := "tinker", "engineer";
    assert Table[3] == (o, n);
    AbsentCharacter(o, Table[0].0, 'g');
    AbsentCharacter(o, Table[1].0, 'p');
    AbsentCharacter(o, Table[2].0, 'v');
    AbsentCharacter(n, Table[4].0, 'h');
    AbsentCharacter(n, Table[5].0, 'h');
    AbsentCharacter(n, Table[6].0, 'w');
    RewriteAt(3);
  }

  lemma RewriteHunt()
    ensures RewriteKey(Table[4].0) == Table[4].1
  {
    var o, n := "hunt", "stalk";
    assert Table[4] == (o, n);
    AbsentCharacter(o, Table[0].0, 'g');
    AbsentCharacter(o, Table[1].0, 'p');
    AbsentCharacter(o, Table[2].0, 'v');
    AbsentCharacter(o, Table[3].0, 'k');
    AbsentCharacter(n, Table[5].0, 'h');
    AbsentCharacter(n, Table[6].0, 'w');
    RewriteAt(4);
  }

  lemma RewriteSkirmish()
    ensures RewriteKey(Table[5].0) == Table[5].1
  {
    var o, n := "skirmish", "fight";
    assert Table[5] == (o, n);
    AbsentCharacter(o, Table[0].0, 'g');
    AbsentCharacter(o, Table[1].0, 'p');
    AbsentCharacter(o, Table[2].0, 'v');
    AbsentCharacter(o, Table[3].0, 'n');
    AbsentCharacter(o, Table[4].0, 'n');
    AbsentCharacter(n, Table[6].0, 'w');
    RewriteAt(5);
  }

  lemma RewriteSway()
    ensures RewriteKey(Table[6].0) == Table[6].1
  {
    var o, n := "sway", "influence";
    assert Table[6] == (o, n);
    AbsentCharacter(o, Table[0].0, 'g');
    AbsentCharacter(o, Table[1].0, 'p');
    AbsentCharacter(o, Table[2].0, 'v');
    AbsentCharacter(o, Table[3].0, 'k');
    AbsentCharacter(o, Table[4].0, 'h');
    AbsentCharacter(o, Table[5].0, 'h');
    RewriteAt(6);
  }

  /** Every old identifier, on its own, is rewritten to exactly its new name:
      no earlier replacement touches it and no later one touches the result. */
  lemma RewriteOldName(i: int)
    requires 0 <= i < |Table|
    ensures RewriteKey(Table[i].0) == Table[i].1
  {
    if i == 0 { RewriteInsight(); }
    else if i == 1 { RewriteProwess(); }
    else if i == 2 { RewriteResolve(); }
    else if i == 3 { RewriteTinker(); }
    else if i == 4 { RewriteHunt(); }
    else if i == 5 { RewriteSkirmish(); }
    else { RewriteSway(); }
  }

  /** A key segment the rewrite handles cleanly: an old identifier itself, or
      a segment that mentions none. */
  predicate Retargetable(seg: string) {
    Rename(seg).Some? || !MentionsOldName(seg)
  }

  /** A key that mentions no old identifier is not one. */
  lemma UnmentionedNotRenamed(seg: string)
    requires !MentionsOldName(seg)
    ensures Rename(seg).None? && Target(seg) == seg
  {
    if Rename(seg).Some? {
      LookupFinds(Table, seg);
      var i :| 0 <= i < |Table| && Table[i].0 == seg;
      assert OccursAt(seg, Table[i].0, 0);
    }
  }

  /** A clean segment is rewritten to its target: an old identifier to its
      new name, anything else to itself. */
  lemma RewriteSegment(seg: string)
    requires Retargetable(seg)
    ensures RewriteKey(seg) == Target(seg)
  {
    if Rename(seg).Some? {
      LookupFinds(Table, seg);
      var i :| 0 <= i < |Table| && Table[i] == (seg, Rename(seg).value);
      RewriteOldName(i);
    } else {
      RewriteKeyUnchanged(seg);
    }
  }

  /** The segments joined by dots, as in `system.attributes.insight`. */
  function JoinPath(segs: seq<string>): string {
    if segs == [] then ""
    else if |segs| == 1 then segs[0]
    else JoinPath(segs[..|segs| - 1]) + "." + segs[|segs| - 1]
  }

  function Targets(segs: seq<string>): (r: seq<string>)
    ensures |r| == |segs| && forall i :: 0 <= i < |segs| ==> r[i] == Target(segs[i])
  {
    if segs == [] then [] else Targets(segs[..|segs| - 1]) + [Target(segs[|segs| - 1])]
  }

  /** A dotted change key whose every segment is an old identifier or mentions
      none is rewritten segment by segment: each old identifier becomes its
      new name and every other segment stays. */
  lemma {:induction false} RewritePath(segs: seq<string>)
    requires forall i :: 0 <= i < |segs| ==> Retargetable(segs[i])
    ensures RewriteKey(JoinPath(segs)) == JoinPath(Targets(segs))
  {
    if segs == [] {
      OldNamesLackDot();
      RewriteWithAbsent("", Table);
    } else if |segs| == 1 {
      RewriteSegment(segs[0]);
    } else {
      var init, last := segs[..|segs| - 1], segs[|segs| - 1];
      RewritePath(init);
      RewriteSegment(last);
      RewriteKeyDot(JoinPath(init), last);
      assert Targets(segs)[..|segs| - 1] == Targets(init);
    }
  }

  /** The segments `system`, `attributes`, `skills` and `value` of a skill
      rating's key mention no old identifier. */
  lemma NoOldNameWithout(seg: string)
    requires 'n' !in seg && 'o' !in seg && 'h' !in seg && 'w' !in seg
    ensures !MentionsOldName(seg)
  {
    AbsentCharacter(seg, Table[0].0, 'n');
    AbsentCharacter(seg, Table[1].0, 'o');
    AbsentCharacter(seg, Table[2].0, 'o');
    AbsentCharacter(seg, Table[3].0, 'n');
    AbsentCharacter(seg, Table[4].0, 'h');
    AbsentCharacter(seg, Table[5].0, 'h');
    AbsentCharacter(seg, Table[6].0, 'w');
  }

  /** A change key addressing a skill's rating, with an old attribute or skill
      name in it, is retargeted at the renamed attribute and skill. */
  lemma RewriteSkillValueKey(attribute: string, skill: string)
    requires Retargetable(attribute) && Retargetable(skill)
    ensures RewriteKey(JoinPath(["system", "attributes", attribute, "skills", skill, "value"]))
            == JoinPath(["system", "attributes", Target(attribute), "skills", Target(skill), "value"])
  {
    var segs := ["system", "attributes", attribute, "skills", skill, "value"];
    forall k | 0 <= k < |segs| ensures Retargetable(segs[k]) && (k != 2 && k != 4 ==> Target(segs[k]) == segs[k]) {
      if k != 2 && k != 4 {
        FixedSegment(segs[k]);
      }
    }
    RewritePath(segs);
    assert Targets(segs) == ["system", "attributes", Target(attribute), "skills", Target(skill), "value"];
  }

  lemma FixedSegment(seg: string)
    requires seg == "system" || seg == "attributes" || seg == "skills" || seg == "value"
    ensures !MentionsOldName(seg) && Target(seg) == seg
  {
    NoOldNameWithout(seg);
    UnmentionedNotRenamed(seg);
  }
}

=== FILE: string_replace.dfy ===
/**
 `String.prototype.replaceAll` with a string pattern and a replacement that
 holds no `$` substitution patterns (section 22.1.3.20 of ECMA-262): every
 non-overlapping occurrence, found left to right, is replaced.
 */
module StringReplace {

  /** `p` occurs in `s` starting at index `i`. */
  predicate OccursAt(s: string, p: string, i: int) {
    0 <= i && i + |p| <= |s| && s[i..i + |p|] == p
  }

  /** `s.includes(p)` */
  predicate Occurs(s: string, p: string) {
    exists i | 0 <= i <= |s| :: OccursAt(s, p, i)
  }

  predicate StartsWith(s: string, p: string) {
    |p| <= |s| && s[..|p|] == p
  }

  /** `s.replaceAll(p, r)`. An empty pattern matches before every character
      and at the end. */
  function ReplaceAll(s: string, p: string, r: string): string
    decreases |s|
  {
    if p == [] then
      if s == [] then r else r + [s[0]] + ReplaceAll(s[1..], p, r)
    else if s == [] then []
    else if StartsWith(s, p) then r + ReplaceAll(s[|p|..], p, r)
    else [s[0]] + ReplaceAll(s[1..], p, r)
  }

  /** The number of occurrences `ReplaceAll` replaces: non-overlapping,
      leftmost first. */
  function CountMatches(s: string, p: string): nat
    requires p != []
    decreases |s|
  {
    if s == [] then 0
    else if StartsWith(s, p) then 1 + CountMatches(s[|p|..], p)
    else CountMatches(s[1..], p)
  }

  /** An occurrence in the tail of a string is an occurrence in the string. */
  lemma OccursInTail(s: string, p: string, k: nat)
    requires k <= |s|
    requires Occurs(s[k..], p)
    ensures Occurs(s, p)
  {
    var i :| 0 <= i <= |s[k..]| && OccursAt(s[k..], p, i);
    assert 0 <= i && i + |p| <= |s| - k;
    assert s[k..][i..i + |p|] == s[k + i..k + i + |p|];
    assert OccursAt(s, p, k + i);
  }

  /** A string in which the pattern does not occur is returned unchanged. */
  lemma {:induction false} ReplaceAllAbsent(s: string, p: string, r: string)
    requires p != []
    requires !Occurs(s, p)
    ensures ReplaceAll(s, p, r) == s
    decreases |s|
  {
    if s != [] {
      assert !StartsWith(s, p) by {
        if StartsWith(s, p) {
          assert OccursAt(s, p, 0);
        }
      }
      if Occurs(s[1..], p) {
        OccursInTail(s, p, 1);
      }
      ReplaceAllAbsent(s[1..], p, r);
      assert s == [s[0]] + s[1..];
    }
  }

  /** Each replaced occurrence changes the length by the difference in length
      between the replacement and the pattern. */
  lemma {:induction false} ReplaceAllLength(s: string, p: string, r: string)
    requires p != []
    ensures |ReplaceAll(s, p, r)| == |s| + CountMatches(s, p) * (|r| - |p|)
    decreases |s|
  {
    if s != [] {
      if StartsWith(s, p) {
        var rest := s[|p|..];
        ReplaceAllLength(rest, p, r);
        var c, d := CountMatches(rest, p), |r| - |p|;
        assert CountMatches(s, p) == 1 + c;
        assert |ReplaceAll(s, p, r)| == |r| + |rest| + c * d;
        MultiplyOnePlus(c, d);
      } else {
        ReplaceAllLength(s[1..], p, r);
      }
    }
  }

  lemma MultiplyOnePlus(c: int, d: int)
    ensures (1 + c) * d == d + c * d
  {
  }

  lemma ProductNonZero(c: int, d: int)
    requires c > 0 && d != 0
    ensures c * d != 0
  {
  }

  /** `ReplaceAll` finds an occurrence exactly when the pattern occurs. */
  lemma {:induction false} CountMatchesPositive(s: string, p: string)
    requires p != []
    ensures CountMatches(s, p) > 0 <==> Occurs(s, p)
    decreases |s|
  {
    if s == [] {
    } else if StartsWith(s, p) {
      assert OccursAt(s, p, 0);
    } else {
      CountMatchesPositive(s[1..], p);
      if Occurs(s, p) {
        var i :| 0 <= i <= |s| && OccursAt(s, p, i);
        if i == 0 {
          assert false;
        }
        assert s[1..][i - 1..i - 1 + |p|] == s[i..i + |p|];
        assert OccursAt(s[1..], p, i - 1);
      } else if Occurs(s[1..], p) {
        OccursInTail(s, p, 1);
      }
    }
  }

  /** With a replacement of a different length, the string is left unchanged
      exactly when the pattern does not occur in it. */
  lemma ReplaceAllUnchangedIff(s: string, p: string, r: string)
    requires p != [] && |r| != |p|
    ensures ReplaceAll(s, p, r) == s <==> !Occurs(s, p)
  {
    CountMatchesPositive(s, p);
    if !Occurs(s, p) {
      ReplaceAllAbsent(s, p, r);
    } else {
      ReplaceAllLength(s, p, r);
      ProductNonZero(CountMatches(s, p), |r| - |p|);
    }
  }

  /** A pattern holding a character the string lacks does not occur in it. */
  lemma AbsentCharacter(s: string, p: string, c: char)
    requires c in p && c !in s
    ensures !Occurs(s, p)
  {
    var k :| 0 <= k < |p| && p[k] == c;
    forall i | 0 <= i <= |s|
      ensures !OccursAt(s, p, i)
    {
      if i + |p| <= |s| {
        assert s[i..i + |p|][k] == s[i + k];
      }
    }
  }

  /** A string that is exactly the pattern becomes the replacement. */
  lemma ReplaceAllWhole(p: string, r: string)
    requires p != []
    ensures ReplaceAll(p, p, r) == r
  {
    assert StartsWith(p, p);
    assert p[|p|..] == [];
  }

  /** A character the pattern lacks splits the string: no occurrence spans
      it, so each side is rewritten on its own. */
  lemma {:induction false} ReplaceAllSplits(a: string, c: char, b: string, p: string, r: string)
    requires p != [] && c !in p
    ensures ReplaceAll(a + [c] + b, p, r) == ReplaceAll(a, p, r) + [c] + ReplaceAll(b, p, r)
    decreases |a|
  {
    var s := a + [c] + b;
    if a == [] {
      SplitBlocksMatch(a, c, b, p);
      assert s[1..] == b;
    } else if StartsWith(a, p) {
      assert s[..|p|] == a[..|p|];
      assert s[|p|..] == a[|p|..] + [c] + b;
      ReplaceAllSplits(a[|p|..], c, b, p, r);
    } else {
      SplitBlocksMatch(a, c, b, p);
      assert s[1..] == a[1..] + [c] + b;
      ReplaceAllSplits(a[1..], c, b, p, r);
    }
  }

  /** No occurrence starts at the front when none starts in `a` and the
      character after `a` is not in the pattern. */
  lemma SplitBlocksMatch(a: string, c: char, b: string, p: string)
    requires p != [] && c !in p && !StartsWith(a, p)
    ensures !StartsWith(a + [c] + b, p)
  {
    var s := a + [c] + b;
    if |p| <= |a| {
      assert s[..|p|] == a[..|p|];
    } else if |p| <= |s| {
      assert s[..|p|][|a|] == c;
      assert p[|a|] != c;
    }
  }
}

=== FILE: token_migration.dfy ===
/**
 The two token payloads of the migration: every token embedded in a scene
 becomes linked to its actor with no per-token overrides, unless the scene's
 token list is missing or holds a `null` token, which throws; and the
 prototype token of a character or crew actor is linked to its actor.
 */
module TokenMigration {
  import opened JsValues
  import opened ActorMigration

  /** A token embedded in a scene: whether it is linked to its actor, its
      per-token overrides of the actor's data, and its other fields. */
  datatype Token = Token(actorLink: bool, actorData: map<string, Value>, fields: map<string, Value>)

  /** A stored scene. `tokens` is `None` when the field is missing, and a
      token is `None` when it is `null` or `undefined`. */
  datatype Scene = Scene(id: string, tokens: Option<seq<Option<Token>>>)

  /** The scene payload: the whole replacement token list under `tokens`. */
  datatype ScenePatch = ScenePatch(tokens: seq<Token>)

  /** Linked to its actor and without overrides. */
  predicate Linked(t: Token) {
    t.actorLink && t.actorData == map[]
  }

  /** The payload copy of one token. */
  function LinkToken(t: Token): (r: Token)
    ensures Linked(r) && r.fields == t.fields
  {
    t.(actorLink := true, actorData := map[])
  }

  /** A token keeps its payload copy exactly when it is already linked. */
  lemma LinkTokenFixpoint(t: Token)
    ensures LinkToken(t) == t <==> Linked(t)
  {
  }

  /** Every entry of a stored token list is a token. */
  predicate NoNullToken(tokens: seq<Option<Token>>) {
    forall i :: 0 <= i < |tokens| ==> tokens[i].Some?
  }

  /** The copied token list, in order, with every copy linked; writing to
      the first `null` token throws. */
  function LinkTokens(tokens: seq<Option<Token>>): (r: Result<seq<Token>, MigrationError>)
    ensures r.Ok? <==> NoNullToken(tokens)
    ensures r.Ok? ==> |r.value| == |tokens|
    ensures r.Ok? ==> forall i :: 0 <= i < |tokens| ==> Linked(r.value[i]) && r.value[i].fields == tokens[i].value.fields
    ensures r.Err? ==> exists i :: 0 <= i < |tokens| && tokens[i].None? && r.error == NullToken(i) &&
                        NoNullToken(tokens[..i])
  {
    if tokens == [] then Ok([])
    else
      var n := |tokens| - 1;
      var init :- LinkTokens(tokens[..n]);
      match tokens[n]
      case None => Err(NullToken(n))
      case Some(t) => Ok(init + [LinkToken(t)])
  }

  /** The scene payload: as many tokens as the scene has, in the same order,
      each linked with no overrides and otherwise unchanged. A missing token
      list, or a `null` token, throws. */
  function MigrateScene(scene: Scene): (r: Result<ScenePatch, MigrationError>)
    ensures r.Ok? <==> scene.tokens.Some? && NoNullToken(scene.tokens.value)
    ensures scene.tokens.None? ==> r == Err(MissingTokens)
    ensures r.Ok? ==> |r.value.tokens| == |scene.tokens.value|
    ensures r.Ok? ==> forall i :: 0 <= i < |r.value.tokens| ==>
              && r.value.tokens[i].actorLink && r.value.tokens[i].actorData == map[]
              && r.value.tokens[i].fields == scene.tokens.value[i].value.fields
  {
    match scene.tokens
    case None => Err(MissingTokens)
    case Some(tokens) =>
      var linked :- LinkTokens(tokens);
      Ok(ScenePatch(linked))
  }

  /** A token list as the host stores it, with no `null` entry. */
  function Stored(tokens: seq<Token>): (r: seq<Option<Token>>)
    ensures |r| == |tokens| && forall i :: 0 <= i < |r| ==> r[i] == Some(tokens[i])
  {
    seq(|tokens|, i requires 0 <= i < |tokens| => Some(tokens[i]))
  }

  /** A list of linked tokens is copied unchanged. */
  lemma {:induction false} LinkTokensOfLinked(tokens: seq<Token>)
    requires forall i :: 0 <= i < |tokens| ==> Linked(tokens[i])
    ensures LinkTokens(Stored(tokens)) == Ok(tokens)
  {
    if tokens != [] {
      var n := |tokens| - 1;
      assert Stored(tokens)[..n] == Stored(tokens[..n]);
      LinkTokensOfLinked(tokens[..n]);
      assert LinkToken(tokens[n]) == tokens[n];
      assert tokens[..n] + [tokens[n]] == tokens;
    }
  }

  /** The scene payload replaces the token list by the same list exactly when
      every stored token is present and already linked without overrides. */
  lemma SceneUnchangedIff(scene: Scene)
    ensures (MigrateScene(scene).Ok? && Stored(MigrateScene(scene).value.tokens) == scene.tokens.value) <==>
            (scene.tokens.Some? && forall i :: 0 <= i < |scene.tokens.value| ==>
               scene.tokens.value[i].Some? && Linked(scene.tokens.value[i].value))
  {
    if scene.tokens.Some? && forall i :: 0 <= i < |scene.tokens.value| ==>
         scene.tokens.value[i].Some? && Linked(scene.tokens.value[i].value) {
      var stored := scene.tokens.value;
      var tokens := seq(|stored|, i requires 0 <= i < |stored| => stored[i].value);
      assert Stored(tokens) == stored;
      LinkTokensOfLinked(tokens);
    }
    if MigrateScene(scene).Ok? && Stored(MigrateScene(scene).value.tokens) == scene.tokens.value {
      var patch := MigrateScene(scene).value.tokens;
      forall i | 0 <= i < |scene.tokens.value|
        ensures scene.tokens.value[i].Some? && Linked(scene.tokens.value[i].value)
      {
        assert Stored(patch)[i] == Some(patch[i]);
      }
    }
  }

  /** Migrating a scene that already carries its payload's tokens gives the
      same payload again: the migration is idempotent. */
  lemma SceneMigrationIdempotent(scene: Scene)
    requires MigrateScene(scene).Ok?
    ensures MigrateScene(Scene(scene.id, Some(Stored(MigrateScene(scene).value.tokens)))) == MigrateScene(scene)
  {
    LinkTokensOfLinked(MigrateScene(scene).value.tokens);
  }

  /** The key of the prototype token's link flag in an actor update. */
  const PrototypeLinkKey: string := "prototypeToken.actorLink"

  /** The token-link payload of an actor: one key, which sets the flag. */
  function MigrateTokenLink(actor: Actor): (r: map<string, Value>)
    ensures r.Keys == {PrototypeLinkKey}
    ensures r[PrototypeLinkKey] == Bool(true)
  {
    map[PrototypeLinkKey := Bool(true)]
  }

  /** The token-link payload reads nothing of the actor: every actor gets the
      same one. */
  lemma TokenLinkIndependent(a: Actor, b: Actor)
    ensures MigrateTokenLink(a) == MigrateTokenLink(b)
  {
  }
}

=== FILE: world_migration.dfy ===
/**
 The world migration as the sequence of updates it submits: for each actor in
 order, the attribute payload of a character and the token-link payload of a
 character or crew; then, for each scene in order, the scene payload. A
 payload whose computation throws is logged and skipped without stopping the
 run, and the system version is recorded at the end whatever failed.
 */
module WorldMigration {
  import opened JsValues
  import opened ActorMigration
  import opened TokenMigration

  /** The document an update or a failure is about. */
  datatype DocumentRef = ActorRef(actorId: string) | SceneRef(sceneId: string)

  datatype Update =
    | AttributesUpdate(actorPatch: ActorPatch)
    | TokenLinkUpdate(link: map<string, Value>)
    | SceneUpdate(scenePatch: ScenePatch)

  /** What the migration does for one payload: submit it to the host, or log
      the error its computation threw. */
  datatype Step = Submit(doc: DocumentRef, update: Update) | Failed(doc: DocumentRef, error: MigrationError)

  /** The steps of a run and the migration version recorded at its end. */
  datatype Run = Run(steps: seq<Step>, recordedVersion: string)

  const Character: string := "character"
  const Crew: string := "crew"

  /** The top-level keys of a payload, which decide whether it counts as empty:
      an actor payload always holds `system` and `effects`. */
  function PayloadKeys(u: Update): set<string> {
    match u
    case AttributesUpdate(_) => {"system", "effects"}
    case TokenLinkUpdate(link) => link.Keys
    case SceneUpdate(_) => {"tokens"}
  }

  /** A payload is submitted only when it is not empty. */
  function SubmitIfNonEmpty(doc: DocumentRef, u: Update): seq<Step> {
    if PayloadKeys(u) == {} then [] else [Submit(doc, u)]
  }

  /** The attribute step of a character: its payload, or the logged error. */
  function AttributesStep(actor: Actor, schema: Schema): seq<Step> {
    match MigrateActor(actor, schema)
    case Ok(patch) => SubmitIfNonEmpty(ActorRef(actor.id), AttributesUpdate(patch))
    case Err(e) => [Failed(ActorRef(actor.id), e)]
  }

  /** The steps for one actor, in the order the migration takes them. */
  function ActorSteps(actor: Actor, schema: Schema): seq<Step> {
    (if actor.kind == Character then AttributesStep(actor, schema) else [])
    + (if actor.kind == Character || actor.kind == Crew
       then SubmitIfNonEmpty(ActorRef(actor.id), TokenLinkUpdate(MigrateTokenLink(actor)))
       else [])
  }

  /** The steps of a loop that visits `xs` in order and takes `f(x)` for each. */
  function FlatMap<T, U>(xs: seq<T>, f: T -> seq<U>): seq<U> {
    if xs == [] then [] else FlatMap(xs[..|xs| - 1], f) + f(xs[|xs| - 1])
  }

  function ActorStepper(schema: Schema): Actor -> seq<Step> {
    (actor: Actor) => ActorSteps(actor, schema)
  }

  /** The steps for the actors, in collection order. */
  function ActorsSteps(actors: seq<Actor>, schema: Schema): seq<Step> {
    FlatMap(actors, ActorStepper(schema))
  }

  /** The step for one scene: its payload, or the logged error. */
  function SceneSteps(scene: Scene): seq<Step> {
    match MigrateScene(scene)
    case Ok(patch) => SubmitIfNonEmpty(SceneRef(scene.id), SceneUpdate(patch))
    case Err(e) => [Failed(SceneRef(scene.id), e)]
  }

  /** What a scene's single step is: its payload submitted, or its error
      logged. */
  predicate IsSceneStep(scene: Scene, step: Step) {
    match MigrateScene(scene)
    case Ok(patch) => step == Submit(SceneRef(scene.id), SceneUpdate(patch))
    case Err(e) => step == Failed(SceneRef(scene.id), e)
  }

  /** The steps for the scenes, in collection order. */
  function ScenesSteps(scenes: seq<Scene>): seq<Step> {
    FlatMap(scenes, SceneSteps)
  }

  /** The whole run over a world: actors first, then scenes, then the version. */
  function PlanWorld(actors: seq<Actor>, scenes: seq<Scene>, schema: Schema, version: string): Run {
    Run(ActorsSteps(actors, schema) + ScenesSteps(scenes), version)
  }

  /** What one actor contributes: a character gets its attribute payload, or
      the error, followed by the token link; a crew gets the token link only;
      any other actor gets nothing. No payload is ever empty, so none is
      skipped. */
  lemma ActorStepsCases(actor: Actor, schema: Schema)
    ensures var link := Submit(ActorRef(actor.id), TokenLinkUpdate(MigrateTokenLink(actor)));
            && (actor.kind == Character && MigrateActor(actor, schema).Ok? ==>
                  ActorSteps(actor, schema) == [Submit(ActorRef(actor.id), AttributesUpdate(MigrateActor(actor, schema).value)), link])
            && (actor.kind == Character && MigrateActor(actor, schema).Err? ==>
                  ActorSteps(actor, schema) == [Failed(ActorRef(actor.id), MigrateActor(actor, schema).error), link])
            && (actor.kind == Crew ==> ActorSteps(actor, schema) == [link])
            && (actor.kind != Character && actor.kind != Crew ==> ActorSteps(actor, schema) == [])
  {
    var doc := ActorRef(actor.id);
    var linkUpdate := TokenLinkUpdate(MigrateTokenLink(actor));
    assert PrototypeLinkKey in PayloadKeys(linkUpdate);
    assert SubmitIfNonEmpty(doc, linkUpdate) == [Submit(doc, linkUpdate)];
    if actor.kind == Character {
      var r := MigrateActor(actor, schema);
      if r.Ok? {
        assert "system" in PayloadKeys(AttributesUpdate(r.value));
        assert AttributesStep(actor, schema) == [Submit(doc, AttributesUpdate(r.value))];
      }
    }
  }

  /** The loop over a concatenation takes the steps of each part in turn. */
  lemma {:induction false} FlatMapConcat<T, U>(xs: seq<T>, ys: seq<T>, f: T -> seq<U>)
    ensures FlatMap(xs + ys, f) == FlatMap(xs, f) + FlatMap(ys, f)
    decreases |ys|
  {
    if ys == [] {
      assert xs + ys == xs;
    } else {
      var ys' := ys[..|ys| - 1];
      assert (xs + ys)[..|xs + ys| - 1] == xs + ys';
      FlatMapConcat(xs, ys', f);
    }
  }

  /** The steps of the loop are those of the earlier elements, then the
      element's own, then those of the later elements. */
  lemma FlatMapSplit<T, U>(pre: seq<T>, x: T, post: seq<T>, f: T -> seq<U>)
    ensures FlatMap(pre + [x] + post, f) == FlatMap(pre, f) + f(x) + FlatMap(post, f)
  {
    FlatMapConcat(pre + [x], post, f);
    assert (pre + [x])[..|pre|] == pre;
  }

  /** A step is taken exactly when some element contributes it. */
  lemma {:induction false} FlatMapMembers<T, U>(xs: seq<T>, f: T -> seq<U>, u: U)
    ensures u in FlatMap(xs, f) <==> exists i :: 0 <= i < |xs| && u in f(xs[i])
  {
    if xs != [] {
      var init := xs[..|xs| - 1];
      FlatMapMembers(init, f, u);
      assert forall i :: 0 <= i < |init| ==> init[i] == xs[i];
    }
  }

  /** The actor loop's last iteration. */
  lemma ActorsStepsSnoc(actors: seq<Actor>, schema: Schema)
    requires actors != []
    ensures ActorsSteps(actors, schema) ==
            ActorsSteps(actors[..|actors| - 1], schema) + ActorSteps(actors[|actors| - 1], schema)
  {
  }

  /** The steps of every scene: one step per scene, in order, which submits
      the scene's payload or logs what it threw. */
  lemma {:induction false} ScenesStepsAre(scenes: seq<Scene>)
    ensures |ScenesSteps(scenes)| == |scenes|
    ensures forall i :: 0 <= i < |scenes| ==> IsSceneStep(scenes[i], ScenesSteps(scenes)[i])
  {
    if scenes != [] {
      var init, last := scenes[..|scenes| - 1], scenes[|scenes| - 1];
      ScenesStepsAre(init);
      SceneStepIs(last);
      assert forall i :: 0 <= i < |init| ==> init[i] == scenes[i];
    }
  }

  /** One scene takes exactly one step. */
  lemma SceneStepIs(scene: Scene)
    ensures |SceneSteps(scene)| == 1 && IsSceneStep(scene, SceneSteps(scene)[0])
  {
    if MigrateScene(scene).Ok? {
      assert "tokens" in PayloadKeys(SceneUpdate(MigrateScene(scene).value));
    }
  }

  /** Failure isolation for scenes: whatever scene `i` turns into, and whether
      or not its payload throws, every other scene's step stays the same. */
  lemma SceneFailureIsolation(scenes: seq<Scene>, i: int, other: Scene)
    requires 0 <= i < |scenes|
    ensures |ScenesSteps(scenes[i := other])| == |ScenesSteps(scenes)| == |scenes|
    ensures IsSceneStep(other, ScenesSteps(scenes[i := other])[i])
    ensures forall j :: 0 <= j < |scenes| && j != i ==> ScenesSteps(scenes[i := other])[j] == ScenesSteps(scenes)[j]
  {
    ScenesStepsAre(scenes);
    ScenesStepsAre(scenes[i := other]);
    forall j | 0 <= j < |scenes| && j != i
      ensures ScenesSteps(scenes[i := other])[j] == ScenesSteps(scenes)[j]
    {
      SceneStepUnique(scenes[j], ScenesSteps(scenes[i := other])[j], ScenesSteps(scenes)[j]);
    }
  }

  /** A scene's step is determined by the scene. */
  lemma SceneStepUnique(scene: Scene, a: Step, b: Step)
    requires IsSceneStep(scene, a) && IsSceneStep(scene, b)
    ensures a == b
  {
  }

  /** The actor steps of a concatenation are the concatenation of the steps. */
  lemma ActorsStepsConcat(xs: seq<Actor>, ys: seq<Actor>, schema: Schema)
    ensures ActorsSteps(xs + ys, schema) == ActorsSteps(xs, schema) + ActorsSteps(ys, schema)
  {
    FlatMapConcat(xs, ys, ActorStepper(schema));
  }

  /** Failure isolation: whatever actor `i` turns into, and whether or not its
      migration throws, the steps of every other actor stay the same. */
  lemma FailureIsolation(actors: seq<Actor>, i: int, other: Actor, schema: Schema)
    requires 0 <= i < |actors|
    ensures ActorsSteps(actors, schema) ==
            ActorsSteps(actors[..i], schema) + ActorSteps(actors[i], schema) + ActorsSteps(actors[i + 1..], schema)
    ensures ActorsSteps(actors[i := other], schema) ==
            ActorsSteps(actors[..i], schema) + ActorSteps(other, schema) + ActorsSteps(actors[i + 1..], schema)
  {
    var f := ActorStepper(schema);
    var pre, post := actors[..i], actors[i + 1..];
    assert actors == pre + [actors[i]] + post;
    assert actors[i := other] == pre + [other] + post;
    FlatMapSplit(pre, actors[i], post, f);
    FlatMapSplit(pre, other, post, f);
  }

  /** The number of actors of the given kind. */
  function CountKind(actors: seq<Actor>, kind: string): nat {
    if actors == [] then 0
    else CountKind(actors[..|actors| - 1], kind) + (if actors[|actors| - 1].kind == kind then 1 else 0)
  }

  /** Two steps per character, one per crew, one per scene. */
  lemma {:induction false} StepCount(actors: seq<Actor>, scenes: seq<Scene>, schema: Schema, version: string)
    ensures |PlanWorld(actors, scenes, schema, version).steps| ==
            2 * CountKind(actors, Character) + CountKind(actors, Crew) + |scenes|
  {
    ActorsStepsCount(actors, schema);
    ScenesStepsAre(scenes);
  }

  lemma {:induction false} ActorsStepsCount(actors: seq<Actor>, schema: Schema)
    ensures |ActorsSteps(actors, schema)| == 2 * CountKind(actors, Character) + CountKind(actors, Crew)
  {
    if actors != [] {
      ActorsStepsCount(actors[..|actors| - 1], schema);
      ActorsStepsSnoc(actors, schema);
      ActorStepsCases(actors[|actors| - 1], schema);
    }
  }

  /** A step belongs to the actor steps exactly when some actor contributes it. */
  lemma ActorsStepsMembers(actors: seq<Actor>, schema: Schema, step: Step)
    ensures step in ActorsSteps(actors, schema) <==> exists i :: 0 <= i < |actors| && step in ActorSteps(actors[i], schema)
  {
    FlatMapMembers(actors, ActorStepper(schema), step);
  }

  /** Only characters get an attribute update, only characters can fail, and
      each carries exactly that character's payload or error. */
  lemma AttributeUpdatesOnlyForCharacters(actors: seq<Actor>, schema: Schema, step: Step)
    requires step in ActorsSteps(actors, schema)
    ensures step.Submit? && step.update.AttributesUpdate? ==>
              exists i :: 0 <= i < |actors| && actors[i].kind == Character &&
                step.doc == ActorRef(actors[i].id) && MigrateActor(actors[i], schema) == Ok(step.update.actorPatch)
    ensures step.Failed? ==>
              exists i :: 0 <= i < |actors| && actors[i].kind == Character &&
                step.doc == ActorRef(actors[i].id) && MigrateActor(actors[i], schema) == Err(step.error)
  {
    ActorsStepsMembers(actors, schema, step);
    var i :| 0 <= i < |actors| && step in ActorSteps(actors[i], schema);
    ActorStepsCases(actors[i], schema);
  }

  /** An empty world submits nothing and still records the version. */
  lemma EmptyWorld(schema: Schema, version: string)
    ensures PlanWorld([], [], schema, version) == Run([], version)
  {
  }

  /** One iteration of the actor loop: the attribute payload of a character,
      then the token link of a character or crew. */
  method MigrateOneActor(a: Actor, schema: Schema) returns (steps: seq<Step>)
    ensures steps == ActorSteps(a, schema)
  {
    steps := [];
    if a.kind == Character {
      match MigrateActor(a, schema) {
        case Ok(patch) =>
          steps := SubmitIfNonEmpty(ActorRef(a.id), AttributesUpdate(patch));
        case Err(e) =>
          steps := [Failed(ActorRef(a.id), e)];
      }
    }
    if a.kind == Character || a.kind == Crew {
      steps := steps + SubmitIfNonEmpty(ActorRef(a.id), TokenLinkUpdate(MigrateTokenLink(a)));
    }
  }

  /** The loop over the actors. */
  method MigrateActors(actors: seq<Actor>, schema: Schema) returns (steps: seq<Step>)
    ensures steps == ActorsSteps(actors, schema)
  {
    steps := [];
    var i := 0;
    while i < |actors|
      invariant 0 <= i <= |actors|
      invariant steps == ActorsSteps(actors[..i], schema)
    {
      var own := MigrateOneActor(actors[i], schema);
      steps := steps + own;
      assert actors[..i + 1][..i] == actors[..i];
      ActorsStepsSnoc(actors[..i + 1], schema);
      i := i + 1;
    }
    assert actors[..i] == actors;
  }

  /** The loop over the scenes. */
  method MigrateScenes(scenes: seq<Scene>) returns (steps: seq<Step>)
    ensures steps == ScenesSteps(scenes)
  {
    steps := [];
    var j := 0;
    while j < |scenes|
      invariant 0 <= j <= |scenes|
      invariant steps == ScenesSteps(scenes[..j])
    {
      match MigrateScene(scenes[j]) {
        case Ok(patch) =>
          steps := steps + SubmitIfNonEmpty(SceneRef(scenes[j].id), SceneUpdate(patch));
        case Err(e) =>
          steps := steps + [Failed(SceneRef(scenes[j].id), e)];
      }
      assert scenes[..j + 1][..j] == scenes[..j];
      j := j + 1;
    }
    assert scenes[..j] == scenes;
  }

  /** The migration over the world's collections: every actor and scene is
      visited whatever failed, and the version is recorded at the end. */
  method MigrateWorld(actors: seq<Actor>, scenes: seq<Scene>, schema: Schema, version: string) returns (run: Run)
    ensures run == PlanWorld(actors, scenes, schema, version)
    ensures run.recordedVersion == version
    ensures |run.steps| == 2 * CountKind(actors, Character) + CountKind(actors, Crew) + |scenes|
  {
    var actorSteps := MigrateActors(actors, schema);
    var sceneSteps := MigrateScenes(scenes);
    run := Run(actorSteps + sceneSteps, version);
    StepCount(actors, scenes, schema, version);
  }
}
